=== FILE: README.md ===
# nid in Dafny

A model of the Go package `nid` (TV4/nid). The package turns free text into
a "nid": a lower-case slug for names and tags. It also checks whether a
candidate string could be a nid. The model covers the following.

- **The configuration record `Nid`.** Its six fields are the valid pattern,
  squish pattern, strip pattern, dash pattern, dash-space replacer and
  transliteration table. Each field is an enumeration of the fixed values
  the package defines (`config.dfy`).
- **Building the record.** `New` folds the functional options over the
  defaults. The options are `SetValidPattern`, `SetStripPattern`,
  `SetTransliterations` (each ignores nil) and `AllowÅÄÖ`.
- **The two presets.** `Default` is `New()` and `Swedish` is
  `New(AllowÅÄÖ)`, i.e. `WithÅÄÖ`.
- **`Nid.Case`** (`pipeline.dfy`) is the empty-text short-circuit followed
  by five steps:
  - `prepare`: lower-case, map `- _ – —` to spaces, then `strings.TrimSpace`;
  - `squish`: each run of `\s+` becomes one space;
  - `transliterate`;
  - `strip`: delete the characters outside the alphabet, then make each
    run of `-{1,}` one dash.
- **`Nid.Possible`**: reject any candidate holding `--`, then require a
  whole-string match of the valid pattern.
- **Both transliteration tables**, entry for entry (`transliteration.dfy`).
  Every key is one code point, so a `strings.Replacer` over them is a
  per-character flat map.
- **The fixed regular expressions**, written out by hand (`runs.dfy`):
  - a run of `\s` (RE2: tab, newline, form feed, carriage return, space)
    or of `-` is collapsed to one character;
  - `strings.TrimSpace` trims the `unicode.IsSpace` class from both ends.

`properties.dfy` proves what `Case` and `Possible` promise together, and
that separators are interchangeable, that a run of them counts as one
whatever its length, and that they can be added at the ends of any text,
under any configuration. On text
made of words and separators, it also gives `Case` as an independent
reference definition, `ReferenceSlug`: separators become dashes, dashes at
the ends are dropped, and each run of dashes becomes one. `vectors.dfy`
checks the package's test vectors, each against the preset it holds for.

The code and the tests disagree in one respect. The tests call the
package-level `Case` and `Possible`, which use `Default`. Six vectors
(nid_test.go lines 19, 28, 37, 46, 60, 63) hold only under `WithÅÄÖ`.
`Default` maps å, ä and ö to a and o, and its valid pattern `{1,}` rejects
the empty string. The model follows the code. Each such vector is proved
under `Swedish`, and where the two presets part, the result `Default`
actually gives is proved alongside.

Two consequences of the code follow:
- `Case` is not idempotent. Stripping (nid.go:119) runs after spaces have
  become dashes, and only `prepare` trims the ends (nid.go:144), so
  `Case("a ^")` is `"a-"` but `Case("a-")` is `"a"`
  (`Vectors.NotIdempotent`). Only slugs are fixed points
  (`Properties.FixedPoint`).
- The test at nid_test.go:60 expects the empty string to be a possible nid.
  That holds only under the Swedish valid pattern, which nid.go:81 notes
  allows empty nids. The default pattern `\A[0-9a-z-]{1,}\z` (nid.go:148)
  rejects it (`Vectors.EmptyCandidate`).

## Model

| member | source | states |
|---|---|---|
| Chars.SpaceClasses | nid.go:144-149 | the `\s` of the squish pattern (nid.go:149) is ASCII and lies inside the white space `TrimSpace` removes (nid.go:144); the only other ASCII white space is the vertical tab, and every remaining white-space code point is at U+0085 or above |
| Chars.ToLower | nid.go:144 | `strings.ToLower` per code point: digits, ASCII lower-case, å ä ö, spaces and separators are unchanged; A-Z and the Latin-1 capitals (not ×) move up by 32; each Latin Extended-A capital becomes its lower-case partner one code point up, and the rest of that block is unchanged; İ→i, Ÿ→ÿ, ẞ→ß, Kelvin sign→k, Angstrom sign→å; every other code point is unchanged |
| Chars.ToLowerIdempotent | nid.go:144 | lower-casing a code point twice is lower-casing it once |
| Chars.Lower | nid.go:144 | lower-casing keeps the length, folds each code point on its own, and leaves no ASCII capital |
| Chars.LowerIdempotent | nid.go:144 | `strings.ToLower` applied twice is applied once |
| Runs.DropRunShape | nid.go:144 | dropping the leading class run keeps a suffix, removes only class characters, and stops at the first character outside the class |
| Runs.TrimRightShape | nid.go:144 | dropping the trailing class run keeps a prefix, removes only class characters, and stops at the last character outside the class |
| Runs.Trim | nid.go:144 | `TrimSpace` takes exactly a class run off each end: the input is a class run, then the result, then a class run, and the result starts and ends outside the class |
| Runs.TrimFixed | nid.go:144 | text that starts and ends outside the class is left unchanged by trimming |
| Runs.CollapseShape | nid.go:151 | collapsing runs yields only the representative and the characters of the input outside the class; no two class characters are left adjacent; the first character survives |
| Runs.CollapseKeepsOthers | nid.go:149-151 | collapsing keeps every character outside the class, all of them and in their order |
| Runs.CollapseFixed | nid.go:151 | a string with no adjacent class characters, whose class characters are already the representative, is left unchanged |
| Runs.CollapseIdempotent | nid.go:151 | collapsing twice is collapsing once |
| Runs.CollapseSplit | nid.go:140 | collapsing splits at any point just after a character outside the class |
| Runs.TrimCommute | nid.go:144 | the left and right halves of `TrimSpace` can be applied in either order |
| Runs.TrimPadded | nid.go:144 | class characters added at either end make no difference to trimming |
| Transliteration.PlainEntry | nid.go:153-253 | every key of the default table is one code point in the key range with a one- or two-character replacement; å ä æ map to "a" and ö ø to "o" |
| Transliteration.SwedishEntry | nid.go:255-355 | the same holds for the Swedish table, except that å ä ö map to themselves, æ to "ä" and ø to "ö" |
| Transliteration.Replace | nid.go:136 | a code point outside the key range is kept as it is; a-z, 0-9 and `-` are always kept |
| Transliteration.ReplaceKept | nid.go:136 | a character is kept exactly when the table has no entry for it or maps it to itself; a keyed character becomes its entry's replacement |
| Transliteration.Transliterate | nid.go:135-137 | a one-character text becomes exactly that character's replacement; without table entries the text is unchanged; every output character comes from the replacement of some input character |
| Transliteration.TransliterateAppend | nid.go:136 | replacing distributes over concatenation (a per-character flat map) |
| Transliteration.ReplacementAlphabet | nid.go:153-355 | every replacement holds only a-z, the dash and the apostrophe of `ŉ`→`'n`, plus å ä ö in the Swedish table; the apostrophe comes only from `ŉ` |
| Transliteration.TableDifference | nid.go:153-355 | the tables agree except at å ä ö æ ø: the default maps å ä æ to a and ö ø to o; the Swedish table keeps å ä ö and maps æ to ä and ø to ö |
| Transliteration.TransliterateSingles | nid.go:136 | where each character has a one-character replacement, transliterating is a character-by-character map |
| Config.ApplyAll | nid.go:72-74 | options never change the squish pattern, dash pattern or dash-space replacer, and leave the valid pattern alone unless one of them sets it |
| Config.New | nid.go:62-77 | every built record has the package's squish pattern `\s+`, dash pattern `-{1,}` and dash-space replacer, and the default valid pattern unless an option sets it |
| Config.Apply | nid.go:80-111 | a setter given nil leaves the record unchanged; a setter given a value changes its own field and nothing else; `AllowÅÄÖ` sets the Swedish valid pattern, strip pattern and table and keeps the other three fields |
| Config.ApplyAllAppend | nid.go:72-74 | options apply left to right: `a` then `b` equals `a + b` |
| Config.NewSnoc | nid.go:62-77 | `New` with one more option is that option applied to what the other options built |
| Config.NilOptionIgnored | nid.go:86-111 | a nil setter anywhere in the option list can be dropped |
| Config.Presets | nid.go:35-39 | `Default` is `New()`; the Swedish preset is `New(AllowÅÄÖ)` |
| Pipeline.DashToSpace | nid.go:152 | `-`, `_`, en dash and em dash become a space; every other character is kept in place; no separator of the four is left |
| Pipeline.DashToSpaceIdempotent | nid.go:152 | replacing separators twice is replacing them once |
| Pipeline.Prepare | nid.go:143-145 | `prepare` is the lower-cased, dash-spaced text with exactly a white-space run taken off each end; it leaves no white space at either end, none of the four separators, and no ASCII capital |
| Pipeline.Squish | nid.go:139-141 | `squish` keeps every non-`\s` character, all of them and in order, and leaves no two `\s` characters adjacent; each result character is a space or a non-`\s` character of the input; where no two `\s` characters were adjacent, each `\s` character just becomes a space |
| Pipeline.Delete | nid.go:150 | a character survives iff it was in the input and the strip alphabet keeps it; text of kept characters is unchanged |
| Pipeline.DeleteAppend | nid.go:132 | deleting distributes over concatenation |
| Pipeline.Strip | nid.go:131-133 | every character of the result is in the strip alphabet; the result never holds `--`; apart from dashes, the result holds exactly the characters deletion kept, all of them and in their order; when deletion leaves no `--`, the result is exactly what deletion kept |
| Pipeline.StripAcross | nid.go:132 | a run of dashes between two kept characters other than the dash leaves exactly one dash, and `strip` splits there |
| Pipeline.DeleteIdempotent | nid.go:132 | deleting the characters outside the alphabet a second time deletes nothing more |
| Pipeline.StripDeleted | nid.go:132 | `strip` gives the same result on the text and on what deletion keeps of it, so dashes that deletion brings together count as one run |
| Pipeline.StripSplit | nid.go:132 | `strip` splits just after any kept character other than the dash: `Strip(a + b) == Strip(a) + Strip(b)` |
| Pipeline.StripRun | nid.go:132 | a leading dash run followed by nothing or by a kept non-dash character becomes exactly one dash, so a run at the start or at the end of the text leaves one dash |
| Pipeline.StripSkip | nid.go:132 | a character the pattern does not keep can be taken out anywhere without changing the result of `strip` |
| Pipeline.StripOne | nid.go:132 | a single kept character is left as it is |
| Pipeline.StripDeletedJoin | nid.go:132 | `"a-^-b"` strips to `"a-b"`: the dashes on either side of the deleted caret become one |
| Pipeline.StripDeletedLead | nid.go:132 | `"^-^-a"` strips to `"-a"`: a leading run that deletion creates leaves one dash |
| Pipeline.Case | nid.go:114-120 | the empty text gives the empty nid; every nid is over the strip alphabet (no capitals, spaces or apostrophes); no nid holds `--` |
| Pipeline.ContainsDoubleDash | nid.go:124 | true iff two neighbouring characters are both `-` |
| Pipeline.AllValid | nid.go:148 | true iff every character is in the valid pattern's class |
| Pipeline.MatchesValid | nid.go:148 | a whole-string match: every character in the class, and non-empty for the default `{1,}` pattern |
| Pipeline.Possible | nid.go:123-129 | true iff there is no `--`, every character is in the valid class, and the candidate is non-empty under the default pattern |
| Properties.CasePossible | nid.go:114-133 | when the valid class admits every kept character, `Possible(Case(t))` holds iff the nid is non-empty or the pattern admits "" |
| Properties.DefaultCasePossible | nid.go:148 | under `Default`, `Possible(Case(t))` holds exactly when `Case(t)` is not empty |
| Properties.SwedishCasePossible | nid.go:81-84 | under `WithÅÄÖ`, `Possible(Case(t))` holds for every text |
| Properties.PrepareToDashes | nid.go:143-145 | on words and separators, `prepare` leaves words and spaces, and its spaces-as-dashes form is the dash form of the lower-cased text with its end dashes trimmed |
| Properties.SquishToDashes | nid.go:139-141 | squishing spaces then turning them to dashes is turning them to dashes then collapsing dash runs |
| Properties.TransliterateWords | nid.go:153-155 | on word characters and spaces, transliterating only turns each space into a dash |
| Properties.AfterPrepare | nid.go:119 | after `prepare`, the remaining steps give the text with spaces as dashes and dash runs collapsed |
| Properties.CaseOfWords | nid.go:114-120 | on text whose lower-cased characters are word characters and separators, `Case` equals the reference slug of the lower-cased text |
| Properties.ReferenceOfSlug | nid.go:151 | the reference slug of a slug is the slug |
| Properties.FixedPoint | nid.go:114-145 | one or more words joined by single dashes are left unchanged by `Case` |
| Properties.CaseOfSpelling | nid.go:143-151 | text that spells a slug letter by letter, in either case and with one separator per dash, gives that slug |
| Properties.CaseLetterByLetter | nid.go:119 | text that spells a slug letter by letter through the transliteration table gives that slug |
| Properties.SeparatorEquivalence | nid.go:144-152 | for every text and every configuration, any separator (`-`, `_`, `–`, `—` or `\s` white space) in a given position gives the same nid |
| Properties.SeparatorRuns | nid.go:144-152 | for every text and every configuration, any two non-empty runs of separators in the same place give the same nid, whatever their lengths |
| Properties.SpaceRunCase | nid.go:144-152 | a non-empty run of separators gives the nid of a single space in its place |
| Properties.DropSeparatorCase | nid.go:144-152 | a separator followed by another separator can be left out without changing the nid |
| Properties.CollapseDropSpace | nid.go:140 | inside a `\s` run, one character more or less makes no difference to squishing |
| Properties.ReferenceJoin | nid.go:151 | a non-empty run of separators between two words becomes exactly one dash in the reference slug |
| Properties.ReferenceSurround | nid.go:144 | leading and trailing separators make no difference to the reference slug |
| Properties.JoinCase | nid.go:114-152 | `Case(x + sep + y)` is `Case(x) + "-" + Case(y)` for any non-empty run of separators between two words |
| Properties.SurroundCase | nid.go:144-152 | for every text and every configuration, separators before or after the text make no difference to `Case` |
| Properties.DeleteInWord | nid.go:131-132 | a character inside a word that transliterates to nothing in the alphabet is dropped without splitting the word |
| Vectors.EmptyText | nid_test.go:13 | `Case("")` is "" under every configuration |
| Vectors.SpaceToDash | nid_test.go:16 | `"foo bar bee"` gives `"foo-bar-bee"` |
| Vectors.SwedishAlphabetDowncased | nid_test.go:19 | under `WithÅÄÖ` the Swedish alphabet in capitals gives it in lower case |
| Vectors.SwedishAlphabetDefault | nid_test.go:19 | under `Default` the same text ends in `aao` |
| Vectors.OtherCharsIgnored | nid_test.go:22 | `"kale8^79'0-"` gives `"kale8790"` |
| Vectors.DiacriticsConverted | nid_test.go:25 | `"Dürén Ibrahimović"` gives `"duren-ibrahimovic"` |
| Vectors.SwedishLettersKept | nid_test.go:28 | under `WithÅÄÖ`, `"ÅÄÖåäö"` gives `"åäöåäö"` |
| Vectors.SwedishLettersDefault | nid_test.go:28 | under `Default`, `"ÅÄÖåäö"` gives `"aaoaao"` |
| Vectors.AccentsE | nid_test.go:31 | `"ÈÉËÊèéëê"` gives `"eeeeeeee"` |
| Vectors.AccentsA | nid_test.go:32 | `"ÀÁÂàáâ"` gives `"aaaaaa"` |
| Vectors.AccentsU | nid_test.go:33 | `"Üü"` gives `"uu"` |
| Vectors.AccentsC | nid_test.go:34 | `"ČĆÇčćç"` gives `"cccccc"` |
| Vectors.AccentsN | nid_test.go:35 | `"Ññ"` gives `"nn"` |
| Vectors.AccentsI | nid_test.go:36 | `"Ïï"` gives `"ii"` |
| Vectors.LigatureAndSlashedO | nid_test.go:37 | under `WithÅÄÖ`, `"ÆØæø"` gives `"äöäö"` |
| Vectors.LigatureAndSlashedODefault | nid_test.go:37 | under `Default`, `"ÆØæø"` gives `"aoao"` |
| Vectors.UnderscoreToDash | nid_test.go:40 | `"Let's_Dance"` gives `"lets-dance"` |
| Vectors.DoubleDashRemoved | nid_test.go:43 | `"Let's -- da-da-dance"` gives `"lets-da-da-dance"` |
| Vectors.SurroundingSpaceRemoved | nid_test.go:46 | under `WithÅÄÖ`, `" Fångarna     på  fortet   "` gives `"fångarna-på-fortet"` |
| Vectors.TrailingDashKept | nid.go:119 | `"a ^"` gives `"a-"`: the dash from the space survives because the caret is deleted only after it |
| Vectors.TrailingDashTrimmed | nid.go:144 | `"a-"` gives `"a"` |
| Vectors.DeletedBetweenSpaces | nid.go:119 | `"a ^ b"` gives `"a-b"`: both spaces become dashes, the caret is deleted and the two dashes collapse into one |
| Vectors.DeletedAtStart | nid.go:119 | `"^ ^ a"` gives `"-a"`: the leading dash that deletion leaves is not trimmed |
| Vectors.NotIdempotent | nid.go:114-120 | `Case(Case("a ^"))` differs from `Case("a ^")` |
| Vectors.EmptyCandidate | nid_test.go:60 | "" is possible under `WithÅÄÖ` and not under `Default` |
| Vectors.SwedishCandidate | nid_test.go:63 | `"räksmörgås"` is possible under `WithÅÄÖ` and not under `Default` |
| Vectors.RejectedCandidates | nid_test.go:66-74 | diacritics, a space, a slash, a newline and capitals are rejected by both presets |
| Vectors.DoubleDashRejected | nid.go:124-126 | `"a--b"` is rejected although each character is valid, while `"a-b"` is accepted |

## Left out

- Chars.ToLower: `strings.ToLower` is stated only for ASCII, Latin-1, Latin Extended-A, the capital sharp s and the Kelvin and Angstrom signs, and is the identity on every other code point. The full Unicode case tables (Greek, Cyrillic, Latin Extended-B and beyond) are not modelled.
- Chars.IsUnicodeSpace: lists the `unicode.IsSpace` code points; the RE2 class `\s` is the ASCII subset that Go documents. Neither Unicode table is derived here.
- Arbitrary regular expressions and replacers passed to `SetValidPattern`, `SetStripPattern` and `SetTransliterations` are not modelled. Each field ranges over the values the package itself defines, because Go's `regexp` engine and `strings.Replacer` internals are not part of this model.
- Go's `New` accepts any `func(*Nid)`. A caller-written option can set any field, including `SquishPattern`, `DashPattern` and `DashSpace`, and a nil option panics when `New` calls it (nid.go:73). The model's options are the four the package defines, so Config.New and Config.ApplyAll promise that those three fields keep their package values, which a foreign option could break. Foreign options and the nil-option panic are not modelled.
- Transliteration.PlainEntry: the guard `InKeyRange` only shortens the case analysis. Every key of both tables lies in it, so the table is unchanged.
- Go strings are byte sequences that may hold invalid UTF-8. The model works on sequences of code points, so the replacement character Go uses for a bad byte is not modelled.
- The package-level variables `Default` and `WithÅÄÖ` are initialised once at start-up. They are modelled as constants, and sharing them between goroutines (there is no locking to model) is left out.
- `New` returns a pointer that options mutate in place. The model builds a new immutable record per option instead, which gives the same final field values.
- Vectors.SurroundingSpaceRemoved: stated under `WithÅÄÖ` only, the preset the test vector holds for. The `Default` result (`fangarna-pa-fortet`) is not stated.

=== FILE: chars.dfy ===
/** Character classes and case folding used by the nid pipeline.

    Go's `strings.ToLower`, `strings.TrimSpace` and RE2's `\s` are defined
    over all of Unicode; here they are stated over the characters the
    transliteration tables and the slug alphabets care about. */
module Chars {

  /** RE2's perl class `\s`, as used by the squish pattern `\s+`:
      tab, newline, form feed, carriage return and space (ASCII only). */
  predicate IsRegexSpace(c: char) {
    c == '\t' || c == '\n' || c == '\U{000C}' || c == '\r' || c == ' '
  }

  /** Go's `unicode.IsSpace`, used by `strings.TrimSpace`: the RE2 class
      plus vertical tab, NEL, no-break space and the other White_Space
      code points. */
  predicate IsUnicodeSpace(c: char) {
    IsRegexSpace(c) || c == '\U{000B}' || c == '\U{0085}' || c == '\U{00A0}'
    || c == '\U{1680}' || ('\U{2000}' <= c <= '\U{200A}')
    || c == '\U{2028}' || c == '\U{2029}' || c == '\U{202F}'
    || c == '\U{205F}' || c == '\U{3000}'
  }

  /** The two white-space classes: `\s` is ASCII and lies inside
      `unicode.IsSpace`, and the one ASCII white-space character outside
      `\s` is the vertical tab. */
  lemma SpaceClasses(c: char)
    ensures IsRegexSpace(c) ==> IsUnicodeSpace(c) && c as int < 0x80
    ensures IsUnicodeSpace(c) && c as int < 0x80 ==> IsRegexSpace(c) || c == '\U{000B}'
    ensures IsUnicodeSpace(c) ==> 0x09 <= c as int <= 0x0D || c == ' ' || c as int >= 0x85
  {
  }

  /** The separators that the dash-space replacer turns into a space:
      hyphen-minus, underscore, en dash and em dash. */
  predicate IsDashLike(c: char) {
    c == '-' || c == '_' || c == '–' || c == '—'
  }

  predicate IsDigit(c: char) { '0' <= c <= '9' }

  predicate IsAsciiLower(c: char) { 'a' <= c <= 'z' }

  predicate IsSwedishLetter(c: char) { c == 'å' || c == 'ä' || c == 'ö' }

  /** Shifts a code point known to stay outside the surrogate range. */
  function Shift(c: char, d: int): char
    requires 0 <= c as int + d < 0xD800
  {
    (c as int + d) as char
  }

  /** The capital of a Latin Extended-A case pair, whose small letter is
      the next code point (İ and Ÿ excepted). */
  predicate IsExtendedACapital(c: char) {
    var x := c as int;
    (0x100 <= x <= 0x137 && x != 0x130 && x % 2 == 0)
    || (0x139 <= x <= 0x148 && x % 2 == 1)
    || (0x14A <= x <= 0x177 && x % 2 == 0)
    || (0x179 <= x <= 0x17E && x % 2 == 1)
  }

  /** `unicode.ToLower` on one code point: ASCII A-Z, the Latin-1
      capitals (except the multiplication sign), the case pairs of Latin
      Extended-A, capital sharp s, and the Kelvin and Angstrom signs. Every
      other code point is returned unchanged. */
  function ToLower(c: char): (r: char)
    ensures IsAsciiLower(c) || IsDigit(c) || IsSwedishLetter(c) ==> r == c
    ensures IsUnicodeSpace(c) || IsDashLike(c) ==> r == c
    ensures 'A' <= c <= 'Z' ==> r as int == c as int + 32
    ensures 0xC0 <= c as int <= 0xDE && c as int != 0xD7 ==> r as int == c as int + 32
    ensures IsExtendedACapital(c) ==> r as int == c as int + 1
    ensures 0x100 <= c as int <= 0x17F && !IsExtendedACapital(c) && c != 'İ' && c != 'Ÿ' ==> r == c
    ensures c == 'İ' ==> r == 'i'
    ensures c == 'Ÿ' ==> r == 'ÿ'
    ensures c == 'ẞ' ==> r == 'ß'
    ensures c == '\U{212A}' ==> r == 'k'
    ensures c == '\U{212B}' ==> r == 'å'
    ensures c as int < 0xC0 && !('A' <= c <= 'Z') ==> r == c
    ensures c as int > 0x17F && c != 'ẞ' && c != '\U{212A}' && c != '\U{212B}' ==> r == c
  {
    var x := c as int;
    if 'A' <= c <= 'Z' then Shift(c, 32)
    else if 0xC0 <= x <= 0xDE && x != 0xD7 then Shift(c, 32)
    else if x == 0x130 then 'i'
    else if 0x100 <= x <= 0x137 && x % 2 == 0 then Shift(c, 1)
    else if 0x139 <= x <= 0x148 && x % 2 == 1 then Shift(c, 1)
    else if 0x14A <= x <= 0x177 && x % 2 == 0 then Shift(c, 1)
    else if x == 0x178 then 'ÿ'
    else if 0x179 <= x <= 0x17E && x % 2 == 1 then Shift(c, 1)
    else if x == 0x1E9E then 'ß'
    else if x == 0x212A then 'k'
    else if x == 0x212B then 'å'
    else c
  }

  /** Folding is idempotent: a folded code point is its own lower-case
      form. */
  lemma ToLowerIdempotent(c: char)
    ensures ToLower(ToLower(c)) == ToLower(c)
  {
  }

  /** `strings.ToLower`: case folding applied to every code point. The
      result keeps the length and holds no ASCII capital. */
  function Lower(s: string): (r: string)
    ensures |r| == |s|
    ensures forall i :: 0 <= i < |s| ==> r[i] == ToLower(s[i])
    ensures forall i :: 0 <= i < |r| ==> !('A' <= r[i] <= 'Z')
  {
    seq(|s|, i requires 0 <= i < |s| => ToLower(s[i]))
  }

  /** Lower-casing twice is lower-casing once. */
  lemma LowerIdempotent(s: string)
    ensures Lower(Lower(s)) == Lower(s)
  {
    forall i | 0 <= i < |s| ensures Lower(Lower(s))[i] == Lower(s)[i] {
      ToLowerIdempotent(s[i]);
    }
  }
}

=== FILE: config.dfy ===
/** The `Nid` configuration record, its functional options and `New`.

    Each pattern field holds one of the fixed patterns of the package rather
    than an arbitrary compiled regular expression. */
module Config {
  import opened Wrappers
  import opened Transliteration

  /** `ValidPattern`: `\A[0-9a-z-]{1,}\z` (the default, non-empty) or
      `\A[0-9a-zåäö-]*\z` (the Swedish preset, which admits ""). */
  datatype ValidPattern = AsciiSlug | SwedishSlug

  /** `StripPattern`: `[^0-9a-z-]` deletes everything but digits, ASCII
      lower case and the dash; `[^0-9a-zåäö-]` also spares å, ä and ö. */
  datatype StripPattern = StripNonAscii | StripNonSwedish

  /** `SquishPattern`: `\s+`. */
  datatype SquishPattern = WhitespaceRuns

  /** `DashPattern`: `-{1,}`. */
  datatype DashPattern = DashRuns

  /** `DashSpace`: the replacer of `-`, `_`, en dash and em dash by a space. */
  datatype DashSpace = Separators

  datatype Nid = Nid(
    validPattern: ValidPattern,
    squishPattern: SquishPattern,
    stripPattern: StripPattern,
    dashPattern: DashPattern,
    dashSpace: DashSpace,
    transliterations: Table)

  /** A functional option of `New`; `None` stands for a nil argument. */
  datatype Setting =
    | SetValidPattern(valid: Option<ValidPattern>)
    | SetStripPattern(strip: Option<StripPattern>)
    | SetTransliterations(table: Option<Table>)
    | AllowSwedish

  /** Applies one option to a record. A setter given nil changes nothing;
      a setter given a value changes its own field and no other. */
  function Apply(n: Nid, o: Setting): (r: Nid)
    ensures o.SetValidPattern? ==> r == (if o.valid.Some? then n.(validPattern := o.valid.value) else n)
    ensures o.SetStripPattern? ==> r == (if o.strip.Some? then n.(stripPattern := o.strip.value) else n)
    ensures o.SetTransliterations? ==> r == (if o.table.Some? then n.(transliterations := o.table.value) else n)
    ensures o.AllowSwedish? ==>
              r.validPattern == SwedishSlug && r.stripPattern == StripNonSwedish
              && r.transliterations == WithSwedish
              && r.squishPattern == n.squishPattern && r.dashPattern == n.dashPattern
              && r.dashSpace == n.dashSpace
    decreases if o.AllowSwedish? then 1 else 0
  {
    match o
    case SetValidPattern(v) =>
      if v.Some? then n.(validPattern := v.value) else n
    case SetStripPattern(p) =>
      if p.Some? then n.(stripPattern := p.value) else n
    case SetTransliterations(t) =>
      if t.Some? then n.(transliterations := t.value) else n
    case AllowSwedish =>
      var n1 := Apply(n, SetValidPattern(Some(SwedishSlug)));
      var n2 := Apply(n1, SetStripPattern(Some(StripNonSwedish)));
      Apply(n2, SetTransliterations(Some(WithSwedish)))
  }

  /** Applies the options in order, the first one first. No option touches
      the squish pattern, the dash pattern or the dash-space replacer. */
  function ApplyAll(n: Nid, options: seq<Setting>): (r: Nid)
    ensures r.squishPattern == n.squishPattern && r.dashPattern == n.dashPattern
            && r.dashSpace == n.dashSpace
    ensures (forall i :: 0 <= i < |options| ==> !options[i].SetValidPattern? && !options[i].AllowSwedish?)
            ==> r.validPattern == n.validPattern
    decreases |options|
  {
    if |options| == 0 then n
    else
      var r := ApplyAll(Apply(n, options[0]), options[1..]);
      assert forall i :: 1 <= i < |options| ==> options[1..][i - 1] == options[i];
      r
  }

  /** `Default = New()`: the fields `New` starts from (see `Presets`). */
  const Default := Nid(AsciiSlug, WhitespaceRuns, StripNonAscii, DashRuns, Separators, Plain)

  /** `New(options...)`: the defaults with the options applied left to
      right. Every record it builds squishes `\s+`, collapses `-{1,}` and
      maps the same separators to spaces; only an option that sets it gives
      a valid pattern other than the default one. */
  function New(options: seq<Setting>): (r: Nid)
    ensures r.squishPattern == WhitespaceRuns && r.dashPattern == DashRuns && r.dashSpace == Separators
    ensures (forall i :: 0 <= i < |options| ==> !options[i].SetValidPattern? && !options[i].AllowSwedish?)
            ==> r.validPattern == AsciiSlug
  {
    ApplyAll(Default, options)
  }

  /** `WithÅÄÖ = New(AllowÅÄÖ)`: the Swedish valid pattern, strip pattern
      and table (see `Presets`). */
  const Swedish := Nid(SwedishSlug, WhitespaceRuns, StripNonSwedish, DashRuns, Separators, WithSwedish)

  /** Options compose left to right: applying `a` then `b` is applying
      `a + b`. */
  lemma {:induction false} ApplyAllAppend(n: Nid, a: seq<Setting>, b: seq<Setting>)
    ensures ApplyAll(n, a + b) == ApplyAll(ApplyAll(n, a), b)
    decreases |a|
  {
    if |a| == 0 {
      assert a + b == b;
    } else {
      assert (a + b)[1..] == a[1..] + b;
      ApplyAllAppend(Apply(n, a[0]), a[1..], b);
    }
  }

  /** `New` with one more option is that option applied to the record the
      other options built. */
  lemma NewSnoc(options: seq<Setting>, o: Setting)
    ensures New(options + [o]) == Apply(New(options), o)
  {
    ApplyAllAppend(Default, options, [o]);
  }

  /** A nil argument anywhere in the option list can be dropped. */
  lemma NilOptionIgnored(a: seq<Setting>, o: Setting, b: seq<Setting>)
    requires o == SetValidPattern(None) || o == SetStripPattern(None)
             || o == SetTransliterations(None)
    ensures New(a + [o] + b) == New(a + b)
  {
    ApplyAllAppend(Default, a + [o], b);
    ApplyAllAppend(Default, a, [o]);
    ApplyAllAppend(Default, a, b);
  }

  /** The two presets are what `New` builds: `Default` from no options and
      `Swedish` from `AllowSwedish` alone. */
  lemma Presets()
    ensures Default == New([])
    ensures Swedish == New([AllowSwedish])
  {
  }
}

=== FILE: pipeline.dfy ===
/** `Case` and `Possible` and the stages of `Case`, for any configuration. */
module Pipeline {
  import opened Chars
  import opened Runs
  import opened Transliteration
  import opened Config

  /** The characters a strip pattern keeps: `0-9a-z-`, plus `åäö` for
      `[^0-9a-zåäö-]`. */
  predicate Keeps(p: StripPattern, c: char) {
    IsDigit(c) || IsAsciiLower(c) || c == '-' || (p == StripNonSwedish && IsSwedishLetter(c))
  }

  /** The character class of a valid pattern: `[0-9a-z-]` or `[0-9a-zåäö-]`. */
  predicate ValidChar(v: ValidPattern, c: char) {
    IsDigit(c) || IsAsciiLower(c) || c == '-' || (v == SwedishSlug && IsSwedishLetter(c))
  }

  /** `dashSpace.Replace`: hyphen, underscore, en dash and em dash become a
      space; every other character is kept. No separator survives. */
  function DashToSpace(d: DashSpace, s: string): (r: string)
    ensures |r| == |s|
    ensures forall i :: 0 <= i < |s| ==> r[i] == if IsDashLike(s[i]) then ' ' else s[i]
    ensures forall i :: 0 <= i < |r| ==> !IsDashLike(r[i])
  {
    seq(|s|, i requires 0 <= i < |s| => if IsDashLike(s[i]) then ' ' else s[i])
  }

  /** Replacing separators twice is replacing them once. */
  lemma DashToSpaceIdempotent(d: DashSpace, s: string)
    ensures DashToSpace(d, DashToSpace(d, s)) == DashToSpace(d, s)
  {
  }

  /** `prepare`: lower-case, separators to spaces, then `strings.TrimSpace`.
      The result starts and ends with a character that is not a space, and
      holds no separator and no ASCII capital. */
  function Prepare(n: Nid, s: string): (r: string)
    ensures r == [] || (!IsUnicodeSpace(r[0]) && !IsUnicodeSpace(r[|r| - 1]))
    ensures forall i :: 0 <= i < |r| ==> !IsDashLike(r[i]) && !('A' <= r[i] <= 'Z')
    ensures Padded(UnicodeSpace, DashToSpace(n.dashSpace, Lower(s)), r)
  {
    PrepareShape(n.dashSpace, s);
    Trim(UnicodeSpace, DashToSpace(n.dashSpace, Lower(s)))
  }

  lemma PrepareShape(d: DashSpace, s: string)
    ensures var r := Trim(UnicodeSpace, DashToSpace(d, Lower(s)));
            forall i :: 0 <= i < |r| ==> !IsDashLike(r[i]) && !('A' <= r[i] <= 'Z')
  {
    var u := DashToSpace(d, Lower(s));
    var r := Trim(UnicodeSpace, u);
    assert forall i :: 0 <= i < |r| ==> r[i] in u;
  }

  /** `squish`: every run of `\s` becomes one space. No two `\s` characters
      are left side by side, and every other character comes from `s`. */
  function Squish(p: SquishPattern, s: string): (r: string)
    ensures !HasAdjacent(RegexSpace, r)
    ensures forall c :: c in r ==> c == ' ' || (c in s && !IsRegexSpace(c))
    ensures Others(RegexSpace, r) == Others(RegexSpace, s)
    ensures !HasAdjacent(RegexSpace, s) ==>
              |r| == |s| && forall i :: 0 <= i < |s| ==> r[i] == if IsRegexSpace(s[i]) then ' ' else s[i]
  {
    CollapseShape(RegexSpace, s);
    CollapseKeepsOthers(RegexSpace, s);
    if HasAdjacent(RegexSpace, s) then CollapseRuns(RegexSpace, s)
    else CollapseIsolated(RegexSpace, s); CollapseRuns(RegexSpace, s)
  }

  /** The first half of `strip`: `StripPattern.ReplaceAllString(s, "")`
      deletes each character the pattern does not keep. */
  function Delete(p: StripPattern, s: string): (r: string)
    ensures forall c :: c in r <==> c in s && Keeps(p, c)
    ensures (forall i :: 0 <= i < |s| ==> Keeps(p, s[i])) ==> r == s
    ensures |r| <= |s|
  {
    if |s| == 0 then []
    else if Keeps(p, s[0]) then [s[0]] + Delete(p, s[1..])
    else Delete(p, s[1..])
  }

  /** `strip`: delete the characters outside the alphabet, then replace
      each run of dashes by one dash. What survives is every kept character
      other than the dash, in order, with no two dashes side by side. */
  function Strip(n: Nid, s: string): (r: string)
    ensures forall i :: 0 <= i < |r| ==> Keeps(n.stripPattern, r[i])
    ensures !HasAdjacent(Dash, r)
    ensures Others(Dash, r) == Others(Dash, Delete(n.stripPattern, s))
    ensures !HasAdjacent(Dash, Delete(n.stripPattern, s)) ==> r == Delete(n.stripPattern, s)
  {
    var d := Delete(n.stripPattern, s);
    var r := CollapseRuns(Dash, d);
    CollapseShape(Dash, d);
    CollapseKeepsOthers(Dash, d);
    assert forall i :: 0 <= i < |r| ==> r[i] in r;
    if HasAdjacent(Dash, d) then r
    else CollapseFixed(Dash, d); r
  }

  /** A run of dashes between two kept characters other than the dash
      leaves exactly one dash: `strip` splits there. */
  lemma StripAcross(n: Nid, u: string, x: char, d: string, y: char, v: string)
    requires Keeps(n.stripPattern, x) && x != '-' && Keeps(n.stripPattern, y) && y != '-'
    requires |d| > 0 && forall i :: 0 <= i < |d| ==> d[i] == '-'
    ensures Strip(n, u + [x] + d + [y] + v) == Strip(n, u + [x]) + "-" + Strip(n, [y] + v)
  {
    var a, b := u + [x], [y] + v;
    assert u + [x] + d + [y] + v == a + d + b;
    var l := Delete(n.stripPattern, a);
    var r := Delete(n.stripPattern, b);
    DeleteAround(n.stripPattern, a, d, b);
    DeleteEnds(n.stripPattern, u, x, y, v);
    CollapseAcross(l, d, r);
    assert TrimRight(Dash, l) == l;
    assert DropRun(Dash, r) == r;
  }

  /** Dashes are never deleted, so deletion passes over a dash run. */
  lemma DeleteAround(p: StripPattern, a: string, d: string, b: string)
    requires forall i :: 0 <= i < |d| ==> d[i] == '-'
    ensures Delete(p, a + d + b) == Delete(p, a) + d + Delete(p, b)
  {
    DeleteAppend(p, a + d, b);
    DeleteAppend(p, a, d);
  }

  lemma DeleteEnds(p: StripPattern, u: string, x: char, y: char, v: string)
    requires Keeps(p, x) && Keeps(p, y)
    ensures Delete(p, u + [x]) == Delete(p, u) + [x]
    ensures Delete(p, [y] + v) == [y] + Delete(p, v)
  {
    DeleteAppend(p, u, [x]);
    assert [x][1..] == [] && ([y] + v)[1..] == v;
  }

  /** Deleting twice deletes nothing more. */
  lemma DeleteIdempotent(p: StripPattern, s: string)
    ensures Delete(p, Delete(p, s)) == Delete(p, s)
  {
    var d := Delete(p, s);
    assert forall i :: 0 <= i < |d| ==> d[i] in d;
  }

  /** `strip` sees only what deletion keeps: applying it to the deleted
      text gives the same result, so a dash run that deletion creates is
      treated as one run. */
  lemma StripDeleted(n: Nid, s: string)
    ensures Strip(n, s) == Strip(n, Delete(n.stripPattern, s))
  {
    DeleteIdempotent(n.stripPattern, s);
  }

  /** `strip` splits just after any kept character other than the dash. */
  lemma StripSplit(n: Nid, a: string, b: string)
    requires a == [] || (Keeps(n.stripPattern, a[|a| - 1]) && a[|a| - 1] != '-')
    ensures Strip(n, a + b) == Strip(n, a) + Strip(n, b)
  {
    var p := n.stripPattern;
    var da, db := Delete(p, a), Delete(p, b);
    DeleteAppend(p, a, b);
    assert da == [] || da[|da| - 1] != '-' by {
      if a != [] {
        DeleteLast(p, a);
      }
    }
    CollapseSplit(Dash, da, db);
    StripIsCollapse(n, a + b);
    StripIsCollapse(n, a);
    StripIsCollapse(n, b);
  }

  lemma StripIsCollapse(n: Nid, s: string)
    ensures Strip(n, s) == CollapseRuns(Dash, Delete(n.stripPattern, s))
  {
  }

  /** A kept last character is the last character of what deletion keeps. */
  lemma DeleteLast(p: StripPattern, a: string)
    requires |a| > 0 && Keeps(p, a[|a| - 1])
    ensures |Delete(p, a)| > 0 && Delete(p, a)[|Delete(p, a)| - 1] == a[|a| - 1]
  {
    var u := a[..|a| - 1];
    assert a == u + [a[|a| - 1]];
    DeleteEnds(p, u, a[|a| - 1], a[|a| - 1], []);
  }

  /** A leading run of dashes, followed by nothing or by a kept character
      other than the dash, leaves exactly one dash; at the end of the text
      (`v == []`) a run leaves one dash as well. */
  lemma StripRun(n: Nid, d: string, v: string)
    requires |d| > 0 && forall i :: 0 <= i < |d| ==> d[i] == '-'
    requires v == [] || (Keeps(n.stripPattern, v[0]) && v[0] != '-')
    ensures Strip(n, d + v) == "-" + Strip(n, v)
  {
    var p := n.stripPattern;
    var w := Delete(p, v);
    DeleteLead(p, d, v);
    assert w == [] || w[0] != '-' by {
      if v != [] {
        assert v == [v[0]] + v[1..];
        DeleteAppend(p, [v[0]], v[1..]);
      }
    }
    CollapseRun(Dash, d, w);
    assert Rep(Dash) == '-';
    StripIsCollapse(n, d + v);
    StripIsCollapse(n, v);
  }

  /** A character the pattern does not keep makes no difference to
      `strip`, wherever it stands. */
  lemma StripSkip(n: Nid, u: string, c: char, v: string)
    requires !Keeps(n.stripPattern, c)
    ensures Strip(n, u + [c] + v) == Strip(n, u + v)
  {
    DeleteSkip(n.stripPattern, u, c, v);
    StripDeleted(n, u + [c] + v);
    StripDeleted(n, u + v);
  }

  lemma DeleteSkip(p: StripPattern, u: string, c: char, v: string)
    requires !Keeps(p, c)
    ensures Delete(p, u + [c] + v) == Delete(p, u + v)
  {
    DeleteAppend(p, u + [c], v);
    DeleteAppend(p, u, [c]);
    DeleteAppend(p, u, v);
  }

  /** A single kept character is its own strip. */
  lemma StripOne(n: Nid, x: char)
    requires Keeps(n.stripPattern, x)
    ensures Strip(n, [x]) == [x]
  {
    assert Delete(n.stripPattern, [x]) == [x];
  }

  /** Two dashes that deletion brings together leave one dash. */
  lemma StripDeletedJoin(n: Nid)
    ensures Strip(n, "a-^-b") == "a-b"
  {
    assert "a-^-b" == "a-" + ['^'] + "-b";
    StripSkip(n, "a-", '^', "-b");
    StripJoined(n);
  }

  lemma StripJoined(n: Nid)
    ensures Strip(n, "a--b") == "a-b"
  {
    StripJoinedSplit(n);
    StripOne(n, 'a');
    StripTrailingWord(n);
  }

  lemma StripJoinedSplit(n: Nid)
    ensures Strip(n, "a--b") == Strip(n, "a") + Strip(n, "--b")
  {
    assert "a--b" == "a" + "--b";
    StripSplit(n, "a", "--b");
  }

  lemma StripTrailingWord(n: Nid)
    ensures Strip(n, "--b") == "-b"
  {
    assert "--b" == "--" + ['b'];
    StripRun(n, "--", ['b']);
    StripOne(n, 'b');
  }

  /** A leading run of dashes that deletion creates leaves one dash. */
  lemma StripDeletedLead(n: Nid)
    ensures Strip(n, "^-^-a") == "-a"
  {
    assert "^-^-a" == [] + ['^'] + "-^-a";
    StripSkip(n, [], '^', "-^-a");
    StripLeadSkipped(n);
  }

  lemma StripLeadSkipped(n: Nid)
    ensures Strip(n, "-^-a") == "-a"
  {
    assert "-^-a" == "-" + ['^'] + "-a";
    StripSkip(n, "-", '^', "-a");
    StripLead(n);
  }

  lemma StripLead(n: Nid)
    ensures Strip(n, "--a") == "-a"
  {
    assert "--a" == "--" + ['a'];
    StripRun(n, "--", ['a']);
    StripOne(n, 'a');
  }

  /** Dashes are never deleted, so deletion passes over a leading run. */
  lemma DeleteLead(p: StripPattern, d: string, v: string)
    requires forall i :: 0 <= i < |d| ==> d[i] == '-'
    ensures Delete(p, d + v) == d + Delete(p, v)
  {
    DeleteAppend(p, d, v);
    DashesKept(p, d);
  }

  lemma DashesKept(p: StripPattern, d: string)
    requires forall i :: 0 <= i < |d| ==> d[i] == '-'
    ensures Delete(p, d) == d
  {
    assert forall i :: 0 <= i < |d| ==> Keeps(p, d[i]);
  }

  /** `Nid.Case`: the empty text gives the empty nid; every nid holds only
      characters of the strip alphabet and never two dashes in a row. */
  function Case(n: Nid, text: string): (r: string)
    ensures text == "" ==> r == ""
    ensures forall i :: 0 <= i < |r| ==> Keeps(n.stripPattern, r[i])
    ensures !HasAdjacent(Dash, r)
  {
    if text == "" then ""
    else Strip(n, Transliterate(n.transliterations, Squish(n.squishPattern, Prepare(n, text))))
  }

  /** `strings.Contains(s, "--")`. */
  function ContainsDoubleDash(s: string): (r: bool)
    ensures r <==> HasAdjacent(Dash, s)
  {
    if |s| < 2 then false
    else if s[0] == '-' && s[1] == '-' then true
    else
      var b := ContainsDoubleDash(s[1..]);
      assert HasAdjacent(Dash, s[1..]) ==> HasAdjacent(Dash, s) by {
        if HasAdjacent(Dash, s[1..]) {
          var i :| 0 <= i < |s[1..]| - 1 && In(Dash, s[1..][i]) && In(Dash, s[1..][i + 1]);
          assert In(Dash, s[i + 1]) && In(Dash, s[i + 2]);
        }
      }
      b
  }

  /** `[class]*`: every character in the class of the valid pattern. */
  function AllValid(v: ValidPattern, s: string): (r: bool)
    ensures r <==> forall i :: 0 <= i < |s| ==> ValidChar(v, s[i])
  {
    if |s| == 0 then true
    else
      var b := ValidChar(v, s[0]) && AllValid(v, s[1..]);
      assert (forall i :: 0 <= i < |s| ==> ValidChar(v, s[i]))
             <==> ValidChar(v, s[0]) && forall i :: 0 <= i < |s[1..]| ==> ValidChar(v, s[1..][i]) by {
        if forall i :: 0 <= i < |s[1..]| ==> ValidChar(v, s[1..][i]) {
          forall i | 0 < i < |s| ensures ValidChar(v, s[i]) {
            assert s[i] == s[1..][i - 1];
          }
        }
      }
      b
  }

  /** `ValidPattern.MatchString`: the whole string is in the class, and for
      `{1,}` it is not empty. */
  function MatchesValid(v: ValidPattern, s: string): (r: bool)
    ensures r <==> (v == AsciiSlug ==> |s| >= 1) && forall i :: 0 <= i < |s| ==> ValidChar(v, s[i])
  {
    match v
    case AsciiSlug => |s| >= 1 && AllValid(v, s)
    case SwedishSlug => AllValid(v, s)
  }

  /** `Nid.Possible`: a candidate holding `--` is rejected; otherwise it must
      match the valid pattern as a whole. */
  function Possible(n: Nid, candidate: string): (r: bool)
    ensures r <==> !HasAdjacent(Dash, candidate)
                   && (n.validPattern == AsciiSlug ==> |candidate| >= 1)
                   && forall i :: 0 <= i < |candidate| ==> ValidChar(n.validPattern, candidate[i])
  {
    if ContainsDoubleDash(candidate) then false
    else MatchesValid(n.validPattern, candidate)
  }

  /** Deleting distributes over concatenation. */
  lemma {:induction false} DeleteAppend(p: StripPattern, a: string, b: string)
    ensures Delete(p, a + b) == Delete(p, a) + Delete(p, b)
    decreases |a|
  {
    if |a| == 0 {
      assert a + b == b;
    } else {
      assert (a + b)[1..] == a[1..] + b;
      DeleteAppend(p, a[1..], b);
    }
  }
}

=== FILE: properties.dfy ===
/** What `Case` and `Possible` promise together, and what `Case` does on
    text made of words and separators. */
module Properties {
  import opened Chars
  import opened Runs
  import opened Transliteration
  import opened Config
  import opened Pipeline

  /** Every nid a configuration produces is possible under it, provided its
      valid pattern admits every character its strip pattern keeps; under a
      non-empty valid pattern only the empty nid fails. */
  lemma CasePossible(n: Nid, t: string)
    requires n.stripPattern == StripNonSwedish ==> n.validPattern == SwedishSlug
    ensures Possible(n, Case(n, t)) <==> Case(n, t) != "" || n.validPattern == SwedishSlug
  {
    var r := Case(n, t);
    forall i | 0 <= i < |r| ensures ValidChar(n.validPattern, r[i]) {
      assert Keeps(n.stripPattern, r[i]);
    }
  }

  /** Under the default configuration `Possible(Case(t))` holds exactly when
      the nid is not empty. */
  lemma DefaultCasePossible(t: string)
    ensures Possible(Default, Case(Default, t)) <==> Case(Default, t) != ""
  {
    CasePossible(Default, t);
  }

  /** Under the Swedish preset every nid is possible, the empty one too. */
  lemma SwedishCasePossible(t: string)
    ensures Possible(Swedish, Case(Swedish, t))
  {
    CasePossible(Swedish, t);
  }

  /** A letter or digit of the strip alphabet: a character of a word. */
  predicate WordChar(n: Nid, c: char) {
    Keeps(n.stripPattern, c) && c != '-'
  }

  /** A character that separates words: one the dash-space replacer maps to
      a space, or one the squish pattern matches. */
  predicate IsSeparator(c: char) {
    IsDashLike(c) || IsRegexSpace(c)
  }

  /** The transliteration table leaves the word characters alone: a table
      without å, ä, ö as keys is needed only when the strip pattern keeps
      them. */
  predicate TableKeepsWords(n: Nid) {
    n.stripPattern == StripNonSwedish ==> n.transliterations == WithSwedish
  }

  /** Text whose lower-cased characters are all word characters and
      separators. */
  predicate WordsAndSeparators(n: Nid, t: string) {
    forall i :: 0 <= i < |t| ==> WordChar(n, ToLower(t[i])) || IsSeparator(ToLower(t[i]))
  }

  /** Every separator becomes a dash. */
  function SeparatorsToDashes(s: string): (r: string)
    ensures |r| == |s|
    ensures forall i :: 0 <= i < |s| ==> r[i] == if IsSeparator(s[i]) then '-' else s[i]
  {
    seq(|s|, i requires 0 <= i < |s| => if IsSeparator(s[i]) then '-' else s[i])
  }

  /** The reference slug of a text of words and separators: separators
      become dashes, those at the ends are dropped and each run between two
      words becomes a single dash. */
  function ReferenceSlug(s: string): string {
    CollapseRuns(Dash, Trim(Dash, SeparatorsToDashes(s)))
  }

  /** Every squish-pattern space becomes a dash. */
  function SpacesToDashes(s: string): (r: string)
    ensures |r| == |s|
    ensures forall i :: 0 <= i < |s| ==> r[i] == if IsRegexSpace(s[i]) then '-' else s[i]
  {
    seq(|s|, i requires 0 <= i < |s| => if IsRegexSpace(s[i]) then '-' else s[i])
  }

  /** Only word characters and squish-pattern spaces. */
  predicate Spaced(n: Nid, s: string) {
    forall i :: 0 <= i < |s| ==> WordChar(n, s[i]) || IsRegexSpace(s[i])
  }

  lemma SpacedSlice(n: Nid, s: string, a: int, b: int)
    requires Spaced(n, s) && 0 <= a <= b <= |s|
    ensures Spaced(n, s[a..b])
  {
    assert forall i :: 0 <= i < b - a ==> s[a..b][i] == s[a + i];
  }

  /** Dropping a leading run of spaces and then turning spaces into dashes is
      turning spaces into dashes and then dropping the leading dashes. */
  lemma {:induction false} DropRunToDashes(n: Nid, k: CharClass, u: string)
    requires k != Dash && Spaced(n, u)
    ensures SpacesToDashes(DropRun(k, u)) == DropRun(Dash, SpacesToDashes(u))
    decreases |u|
  {
    if |u| > 0 {
      var d := SpacesToDashes(u);
      assert d[1..] == SpacesToDashes(u[1..]);
      if In(k, u[0]) {
        assert IsRegexSpace(u[0]);
        SpacedSlice(n, u, 1, |u|);
        DropRunToDashes(n, k, u[1..]);
      } else {
        assert !IsRegexSpace(u[0]);
      }
    }
  }

  /** The same for the trailing run. */
  lemma {:induction false} TrimRightToDashes(n: Nid, k: CharClass, u: string)
    requires k != Dash && Spaced(n, u)
    ensures SpacesToDashes(TrimRight(k, u)) == TrimRight(Dash, SpacesToDashes(u))
    decreases |u|
  {
    if |u| > 0 {
      var d := SpacesToDashes(u);
      var m := |u| - 1;
      assert d[..m] == SpacesToDashes(u[..m]);
      if In(k, u[m]) {
        assert IsRegexSpace(u[m]);
        SpacedSlice(n, u, 0, m);
        TrimRightToDashes(n, k, u[..m]);
      } else {
        assert !IsRegexSpace(u[m]);
      }
    }
  }

  /** Squishing and then turning spaces into dashes is turning spaces into
      dashes and then collapsing the dash runs. */
  lemma {:induction false} SquishToDashes(n: Nid, p: string)
    requires Spaced(n, p)
    ensures SpacesToDashes(CollapseRuns(RegexSpace, p)) == CollapseRuns(Dash, SpacesToDashes(p))
    decreases |p|
  {
    if |p| > 0 {
      var d := SpacesToDashes(p);
      assert d[1..] == SpacesToDashes(p[1..]);
      SpacedSlice(n, p, 1, |p|);
      SquishToDashes(n, p[1..]);
      if |p| > 1 && IsRegexSpace(p[0]) && IsRegexSpace(p[1]) {
        assert CollapseRuns(Dash, d) == CollapseRuns(Dash, d[1..]);
      } else {
        SquishHead(n, p);
      }
    }
  }

  lemma SquishHead(n: Nid, p: string)
    requires |p| > 0 && Spaced(n, p) && !(|p| > 1 && IsRegexSpace(p[0]) && IsRegexSpace(p[1]))
    requires SpacesToDashes(CollapseRuns(RegexSpace, p[1..])) == CollapseRuns(Dash, SpacesToDashes(p[1..]))
    ensures SpacesToDashes(CollapseRuns(RegexSpace, p)) == CollapseRuns(Dash, SpacesToDashes(p))
  {
    var d := SpacesToDashes(p);
    assert d[1..] == SpacesToDashes(p[1..]);
    var x := if IsRegexSpace(p[0]) then ' ' else p[0];
    CollapseHead(RegexSpace, p);
    DashesOfHead(x, CollapseRuns(RegexSpace, p[1..]));
    DashIffSpace(n, p, 0);
    if |p| > 1 {
      DashIffSpace(n, p, 1);
    }
    CollapseHead(Dash, d);
  }

  lemma DashIffSpace(n: Nid, p: string, i: int)
    requires Spaced(n, p) && 0 <= i < |p|
    ensures SpacesToDashes(p)[i] == '-' <==> IsRegexSpace(p[i])
  {
  }

  lemma DashesOfHead(x: char, c: string)
    ensures SpacesToDashes([x] + c) == [if IsRegexSpace(x) then '-' else x] + SpacesToDashes(c)
  {
    assert forall i :: 0 < i < |c| + 1 ==> ([x] + c)[i] == c[i - 1];
  }

  /** A word character is its own replacement. */
  lemma ReplaceWordChar(n: Nid, c: char)
    requires TableKeepsWords(n) && WordChar(n, c)
    ensures Replace(n.transliterations, c) == [c]
  {
  }

  /** A word character is its own replacement and a space becomes a dash. */
  lemma ReplaceSpaced(n: Nid, c: char)
    requires TableKeepsWords(n) && (WordChar(n, c) || c == ' ')
    ensures Replace(n.transliterations, c) == [if c == ' ' then '-' else c]
  {
    if c != ' ' {
      ReplaceWordChar(n, c);
    }
  }

  /** On word characters and single spaces, transliterating only turns each
      space into a dash. */
  lemma {:induction false} TransliterateWords(n: Nid, q: string)
    requires TableKeepsWords(n)
    requires forall i :: 0 <= i < |q| ==> WordChar(n, q[i]) || q[i] == ' '
    ensures Transliterate(n.transliterations, q) == SpacesToDashes(q)
    decreases |q|
  {
    if |q| > 0 {
      var d := SpacesToDashes(q);
      ReplaceSpaced(n, q[0]);
      assert d[1..] == SpacesToDashes(q[1..]);
      TransliterateWords(n, q[1..]);
      assert d == [d[0]] + d[1..];
    }
  }

  /** `prepare` on such text leaves words and spaces, and turning those
      spaces into dashes gives the separators-to-dashes text without its
      leading and trailing dashes. */
  lemma PrepareToDashes(n: Nid, t: string)
    requires WordsAndSeparators(n, t)
    ensures Spaced(n, Prepare(n, t))
    ensures SpacesToDashes(Prepare(n, t)) == Trim(Dash, SeparatorsToDashes(Lower(t)))
  {
    var l := Lower(t);
    var u := DashToSpace(n.dashSpace, l);
    assert Spaced(n, u);
    assert SeparatorsToDashes(l) == SpacesToDashes(u);
    var left := DropRun(UnicodeSpace, u);
    DropRunShape(UnicodeSpace, u);
    SpacedSlice(n, u, |u| - |left|, |u|);
    DropRunToDashes(n, UnicodeSpace, u);
    TrimRightToDashes(n, UnicodeSpace, left);
    var p := TrimRight(UnicodeSpace, left);
    TrimRightShape(UnicodeSpace, left);
    SpacedSlice(n, left, 0, |p|);
  }

  /** The stages after `prepare`, on words and spaces: the result is the
      text with spaces turned into dashes and dash runs collapsed. */
  lemma AfterPrepare(n: Nid, p: string)
    requires TableKeepsWords(n) && Spaced(n, p)
    ensures Strip(n, Transliterate(n.transliterations, Squish(n.squishPattern, p)))
            == CollapseRuns(Dash, SpacesToDashes(p))
  {
    var q := Squish(n.squishPattern, p);
    SquishToDashes(n, p);
    CollapseShape(RegexSpace, p);
    forall i | 0 <= i < |q| ensures WordChar(n, q[i]) || q[i] == ' ' {
      assert q[i] in q;
      if q[i] != ' ' {
        var j :| 0 <= j < |p| && p[j] == q[i];
      }
    }
    TransliterateWords(n, q);
    var x := SpacesToDashes(q);
    assert forall i :: 0 <= i < |x| ==> Keeps(n.stripPattern, x[i]);
    assert Delete(n.stripPattern, x) == x;
    var y := SpacesToDashes(p);
    assert x == CollapseRuns(Dash, y);
    CollapseIdempotent(Dash, y);
    assert Strip(n, x) == CollapseRuns(Dash, x);
  }

  /** On text whose lower-cased characters are word characters and
      separators, `Case` gives the reference slug of the lower-cased text. */
  lemma CaseOfWords(n: Nid, t: string)
    requires TableKeepsWords(n)
    requires WordsAndSeparators(n, t)
    ensures Case(n, t) == ReferenceSlug(Lower(t))
  {
    if t == "" {
      assert SeparatorsToDashes(Lower(t)) == [];
      assert Trim(Dash, []) == [];
    } else {
      var p := Prepare(n, t);
      assert Case(n, t) == Strip(n, Transliterate(n.transliterations, Squish(n.squishPattern, p)));
      PrepareToDashes(n, t);
      AfterPrepare(n, p);
    }
  }

  /** A slug: one or more non-empty words joined by single dashes. */
  predicate IsSlug(n: Nid, s: string) {
    |s| > 0 && s[0] != '-' && s[|s| - 1] != '-' && !HasAdjacent(Dash, s)
    && forall i :: 0 <= i < |s| ==> WordChar(n, s[i]) || s[i] == '-'
  }

  /** Text made of word characters and separators is its own lower-case
      form. */
  lemma LowerOfWords(n: Nid, t: string)
    requires forall i :: 0 <= i < |t| ==> WordChar(n, t[i]) || IsSeparator(t[i])
    ensures Lower(t) == t
    ensures WordsAndSeparators(n, t)
  {
  }

  /** The reference slug of a slug is the slug itself. */
  lemma ReferenceOfSlug(n: Nid, s: string)
    requires IsSlug(n, s)
    ensures ReferenceSlug(s) == s
  {
    var t := SeparatorsToDashes(s);
    assert t == s by {
      forall i | 0 <= i < |s| ensures t[i] == s[i] {
      }
    }
    TrimFixed(Dash, s);
    CollapseFixed(Dash, s);
  }

  /** `Case` leaves a slug as it is. */
  lemma FixedPoint(n: Nid, s: string)
    requires TableKeepsWords(n) && IsSlug(n, s)
    ensures Case(n, s) == s
  {
    LowerOfWords(n, s);
    CaseOfWords(n, s);
    ReferenceOfSlug(n, s);
  }

  /** `c` stands for the slug character `d`: a separator where the slug has
      a dash, and elsewhere a character whose lower-case form is `d`. */
  predicate LowersTo(c: char, d: char) {
    if d == '-' then IsSeparator(c) else ToLower(c) == d
  }

  /** A text that spells a slug character by character, in either case and
      with one separator wherever the slug has a dash, gives that slug. */
  lemma CaseOfSpelling(n: Nid, t: string, s: string)
    requires TableKeepsWords(n) && IsSlug(n, s) && |t| == |s|
    requires forall i :: 0 <= i < |t| ==> LowersTo(t[i], s[i])
    ensures Case(n, t) == s
  {
    Spelling(n, t, s);
    CaseOfWords(n, t);
    ReferenceOfSpelling(n, Lower(t), s);
  }

  /** Text whose separators-to-dashes form is a slug has that slug as its
      reference slug. */
  lemma ReferenceOfSpelling(n: Nid, x: string, s: string)
    requires IsSlug(n, s) && SeparatorsToDashes(x) == s
    ensures ReferenceSlug(x) == s
  {
    ReferenceOfSlug(n, s);
    assert SeparatorsToDashes(s) == s;
  }

  lemma Spelling(n: Nid, t: string, s: string)
    requires IsSlug(n, s) && |t| == |s|
    requires forall i :: 0 <= i < |t| ==> LowersTo(t[i], s[i])
    ensures WordsAndSeparators(n, t)
    ensures SeparatorsToDashes(Lower(t)) == s
  {
    var l := Lower(t);
    forall i | 0 <= i < |t|
      ensures WordChar(n, l[i]) || IsSeparator(l[i])
      ensures (if IsSeparator(l[i]) then '-' else l[i]) == s[i]
    {
      if s[i] == '-' {
        assert IsUnicodeSpace(t[i]) || IsDashLike(t[i]);
      } else {
        assert WordChar(n, s[i]);
      }
    }
  }

  /** `c` stands where the slug has `d`: a separator where the slug has a
      dash, and elsewhere a character whose lower-case form is neither a
      separator nor a space. */
  predicate Aligned(c: char, d: char) {
    if d == '-' then IsSeparator(c) else InWord(c)
  }

  /** Neither a separator nor a space once lower-cased: a character that
      stays inside the word around it. */
  predicate InWord(c: char) {
    !IsDashLike(ToLower(c)) && !IsUnicodeSpace(ToLower(c))
  }

  /** `c` spells the slug character `d`: aligned with it, and a letter
      whose lower-case form has the one character `d` as its replacement. */
  predicate Spells(n: Nid, c: char, d: char) {
    Aligned(c, d) && (d == '-' || Replace(n.transliterations, ToLower(c)) == [d])
  }

  /** A text that spells a slug character by character through the
      transliteration table gives that slug. */
  lemma CaseLetterByLetter(n: Nid, t: string, s: string)
    requires IsSlug(n, s) && |t| == |s|
    requires forall i :: 0 <= i < |t| ==> Spells(n, t[i], s[i])
    ensures Case(n, t) == s
  {
    var q := seq(|s|, i requires 0 <= i < |s| => if s[i] == '-' then ' ' else ToLower(t[i]));
    assert forall i :: 0 <= i < |t| ==> Aligned(t[i], s[i]);
    LetterByLetterSquish(n, t, s, q);
    SpelledReplacements(n, t, s, q);
    TransliterateSlug(n, q, s);
    assert Case(n, t) == Strip(n, Transliterate(n.transliterations, Squish(n.squishPattern, Prepare(n, t))));
  }

  lemma SpelledReplacements(n: Nid, t: string, s: string, q: string)
    requires |t| == |s| == |q|
    requires forall i :: 0 <= i < |t| ==> Spells(n, t[i], s[i])
    requires forall i :: 0 <= i < |s| ==> q[i] == if s[i] == '-' then ' ' else ToLower(t[i])
    ensures forall i :: 0 <= i < |q| ==> Replace(n.transliterations, q[i]) == [s[i]]
  {
    forall i | 0 <= i < |q| ensures Replace(n.transliterations, q[i]) == [s[i]] {
      if s[i] == '-' {
        assert q[i] == ' ';
      }
    }
  }

  lemma TransliterateSlug(n: Nid, q: string, s: string)
    requires IsSlug(n, s) && |q| == |s|
    requires forall i :: 0 <= i < |q| ==> Replace(n.transliterations, q[i]) == [s[i]]
    ensures Strip(n, Transliterate(n.transliterations, q)) == s
  {
    TransliterateSingles(n.transliterations, q, s);
    assert Delete(n.stripPattern, s) == s;
    CollapseFixed(Dash, s);
  }

  lemma LetterByLetterSquish(n: Nid, t: string, s: string, q: string)
    requires IsSlug(n, s) && |t| == |s|
    requires forall i :: 0 <= i < |t| ==> Aligned(t[i], s[i])
    requires |q| == |s| && forall i :: 0 <= i < |s| ==> q[i] == if s[i] == '-' then ' ' else ToLower(t[i])
    ensures Squish(n.squishPattern, Prepare(n, t)) == q
  {
    var u := DashToSpace(n.dashSpace, Lower(t));
    forall i | 0 <= i < |u|
      ensures In(RegexSpace, u[i]) <==> s[i] == '-'
      ensures (if In(RegexSpace, u[i]) then ' ' else u[i]) == q[i]
      ensures s[i] != '-' ==> !IsUnicodeSpace(u[i])
    {
      if s[i] == '-' {
        assert IsUnicodeSpace(t[i]) || IsDashLike(t[i]);
      }
    }
    assert Trim(UnicodeSpace, u) == u by {
      TrimBetween(UnicodeSpace, [], u, []);
      assert [] + u + [] == u;
    }
    SquishIsolated(u, s, q);
  }

  lemma SquishIsolated(u: string, s: string, q: string)
    requires !HasAdjacent(Dash, s) && |u| == |s| == |q|
    requires forall i :: 0 <= i < |u| ==> (In(RegexSpace, u[i]) <==> s[i] == '-')
    requires forall i :: 0 <= i < |u| ==> (if In(RegexSpace, u[i]) then ' ' else u[i]) == q[i]
    ensures CollapseRuns(RegexSpace, u) == q
  {
    assert !HasAdjacent(RegexSpace, u) by {
      forall i | 0 <= i < |u| - 1 ensures !(In(RegexSpace, u[i]) && In(RegexSpace, u[i + 1])) {
        assert !(s[i] == '-' && s[i + 1] == '-');
      }
    }
    CollapseIsolated(RegexSpace, u);
  }

  /** Any separator may stand in for any other: replacing one separator of
      the text by another does not change the nid, whatever the text and
      whatever the configuration. */
  lemma SeparatorEquivalence(n: Nid, t: string, i: int, c: char, d: char)
    requires 0 <= i < |t| && IsSeparator(c) && IsSeparator(d)
    ensures Case(n, t[i := c]) == Case(n, t[i := d])
  {
    var u := DashToSpace(n.dashSpace, Lower(t[i := c]));
    var v := DashToSpace(n.dashSpace, Lower(t[i := d]));
    assert SpaceAlike(u, v) by {
      forall j | 0 <= j < |u|
        ensures u[j] == v[j] || (IsRegexSpace(u[j]) && IsRegexSpace(v[j]))
      {
        if j == i {
          assert ToLower(c) == c && ToLower(d) == d;
        } else {
          assert t[i := c][j] == t[i := d][j];
        }
      }
    }
    DropRunAlike(u, v);
    TrimRightAlike(DropRun(UnicodeSpace, u), DropRun(UnicodeSpace, v));
    CollapseAlike(Prepare(n, t[i := c]), Prepare(n, t[i := d]));
  }

  /** A run of separators gives the same nid whatever its length and
      whatever separators it holds, for every text and every
      configuration. */
  lemma SeparatorRuns(n: Nid, x: string, s1: string, s2: string, y: string)
    requires |s1| > 0 && forall i :: 0 <= i < |s1| ==> IsSeparator(s1[i])
    requires |s2| > 0 && forall i :: 0 <= i < |s2| ==> IsSeparator(s2[i])
    ensures Case(n, x + s1 + y) == Case(n, x + s2 + y)
  {
    SpaceRunCase(n, x, s1, y);
    SpaceRunCase(n, x, s2, y);
  }

  /** A run of separators gives the nid of a single space. */
  lemma {:induction false} SpaceRunCase(n: Nid, x: string, s: string, y: string)
    requires |s| > 0 && forall i :: 0 <= i < |s| ==> IsSeparator(s[i])
    ensures Case(n, x + s + y) == Case(n, x + [' '] + y)
    decreases |s|
  {
    if |s| == 1 {
      OneSeparatorCase(n, x, s, y);
    } else {
      SplitFirst(x, s, y);
      var z := s[1..] + y;
      assert z[0] == s[1] && IsSeparator(z[0]);
      assert forall i :: 0 <= i < |s[1..]| ==> IsSeparator(s[1..][i]) by {
        forall i | 0 <= i < |s[1..]| ensures IsSeparator(s[1..][i]) {
          assert s[1..][i] == s[i + 1];
        }
      }
      DropSeparatorCase(n, x, s[0], z);
      SpaceRunCase(n, x, s[1..], y);
    }
  }

  lemma OneSeparatorCase(n: Nid, x: string, s: string, y: string)
    requires |s| == 1 && IsSeparator(s[0])
    ensures Case(n, x + s + y) == Case(n, x + [' '] + y)
  {
    var t := x + s + y;
    assert t[|x| := s[0]] == t;
    assert t[|x| := ' '] == x + [' '] + y;
    SeparatorEquivalence(n, t, |x|, s[0], ' ');
  }

  lemma SplitFirst(x: string, s: string, y: string)
    requires |s| > 0
    ensures x + s + y == x + [s[0]] + (s[1..] + y)
    ensures x + (s[1..] + y) == x + s[1..] + y
  {
    assert s == [s[0]] + s[1..];
  }

  /** A separator followed by another one can be left out. */
  lemma DropSeparatorCase(n: Nid, x: string, c: char, z: string)
    requires IsSeparator(c) && |z| > 0 && IsSeparator(z[0])
    ensures Case(n, x + [c] + z) == Case(n, x + z)
  {
    var ux := DashToSpace(n.dashSpace, Lower(x));
    var uc := DashToSpace(n.dashSpace, Lower([c]));
    var uz := DashToSpace(n.dashSpace, Lower(z));
    SpacedThree(n, x, [c], z);
    SpacedTwo(n, x, z);
    assert ToLower(c) == c && ToLower(z[0]) == z[0];
    assert uc == [uc[0]] && IsRegexSpace(uc[0]);
    assert IsRegexSpace(uz[0]);
    TrimDropSpace(ux, uc[0], uz);
    assert x + [c] + z != "" && x + z != "";
  }

  /** Trimming and then squishing cannot tell a `\s` character apart from
      the `\s` run it starts. */
  lemma TrimDropSpace(a: string, e: char, b: string)
    requires IsRegexSpace(e) && |b| > 0 && IsRegexSpace(b[0])
    ensures CollapseRuns(RegexSpace, Trim(UnicodeSpace, a + [e] + b))
            == CollapseRuns(RegexSpace, Trim(UnicodeSpace, a + b))
  {
    assert a + [e] + b == a + ([e] + b);
    assert ([e] + b)[1..] == b;
    if forall i :: 0 <= i < |a| ==> In(UnicodeSpace, a[i]) {
      DropRunSkip(UnicodeSpace, a, [e] + b);
      DropRunSkip(UnicodeSpace, a, b);
    } else {
      DropRunAppend(UnicodeSpace, a, [e] + b);
      DropRunAppend(UnicodeSpace, a, b);
      var d := DropRun(UnicodeSpace, a);
      assert d + ([e] + b) == d + [e] + b;
      if forall i :: 0 <= i < |b| ==> In(UnicodeSpace, b[i]) {
        TrimRightSkip(UnicodeSpace, d, [e] + b);
        TrimRightSkip(UnicodeSpace, d, b);
      } else {
        TrimDropSpaceRight(d, e, b);
      }
    }
  }

  lemma TrimDropSpaceRight(d: string, e: char, b: string)
    requires IsRegexSpace(e) && |b| > 0 && IsRegexSpace(b[0])
    requires exists i :: 0 <= i < |b| && !In(UnicodeSpace, b[i])
    ensures CollapseRuns(RegexSpace, TrimRight(UnicodeSpace, d + [e] + b))
            == CollapseRuns(RegexSpace, TrimRight(UnicodeSpace, d + b))
  {
    TrimRightAppend(UnicodeSpace, d + [e], b);
    TrimRightAppend(UnicodeSpace, d, b);
    var t := TrimRight(UnicodeSpace, b);
    TrimRightShape(UnicodeSpace, b);
    assert |t| > 0;
    assert t[0] == b[0];
    CollapseDropSpace(d, e, t);
  }

  /** Inside a `\s` run one character more or less makes no difference to
      squishing. */
  lemma {:induction false} CollapseDropSpace(a: string, e: char, b: string)
    requires IsRegexSpace(e) && |b| > 0 && IsRegexSpace(b[0])
    ensures CollapseRuns(RegexSpace, a + [e] + b) == CollapseRuns(RegexSpace, a + b)
    decreases |a|
  {
    var s, t := a + [e] + b, a + b;
    if |a| == 0 {
      assert s == [e] + b && s[1..] == b && t == b;
    } else {
      assert s[0] == t[0] == a[0];
      assert In(RegexSpace, s[1]) <==> In(RegexSpace, t[1]);
      assert s[1..] == a[1..] + [e] + b && t[1..] == a[1..] + b;
      CollapseDropSpace(a[1..], e, b);
    }
  }

  /** Two strings of one length that differ only where both hold a `\s`
      character. */
  predicate SpaceAlike(x: string, y: string) {
    |x| == |y| && forall j :: 0 <= j < |x| ==> x[j] == y[j] || (IsRegexSpace(x[j]) && IsRegexSpace(y[j]))
  }

  lemma SpaceAlikeTail(x: string, y: string)
    requires SpaceAlike(x, y) && |x| > 0
    ensures SpaceAlike(x[1..], y[1..]) && SpaceAlike(x[..|x| - 1], y[..|y| - 1])
  {
    assert forall j :: 0 <= j < |x| - 1 ==> x[1..][j] == x[j + 1] && y[1..][j] == y[j + 1];
  }

  /** Trimming leading white space treats alike strings alike. */
  lemma {:induction false} DropRunAlike(x: string, y: string)
    requires SpaceAlike(x, y)
    ensures SpaceAlike(DropRun(UnicodeSpace, x), DropRun(UnicodeSpace, y))
    decreases |x|
  {
    if |x| > 0 {
      assert In(UnicodeSpace, x[0]) <==> In(UnicodeSpace, y[0]);
      if In(UnicodeSpace, x[0]) {
        SpaceAlikeTail(x, y);
        DropRunAlike(x[1..], y[1..]);
      }
    }
  }

  /** Trimming trailing white space treats alike strings alike. */
  lemma {:induction false} TrimRightAlike(x: string, y: string)
    requires SpaceAlike(x, y)
    ensures SpaceAlike(TrimRight(UnicodeSpace, x), TrimRight(UnicodeSpace, y))
    decreases |x|
  {
    if |x| > 0 {
      assert In(UnicodeSpace, x[|x| - 1]) <==> In(UnicodeSpace, y[|y| - 1]);
      if In(UnicodeSpace, x[|x| - 1]) {
        SpaceAlikeTail(x, y);
        TrimRightAlike(x[..|x| - 1], y[..|y| - 1]);
      }
    }
  }

  /** Squishing makes alike strings equal. */
  lemma {:induction false} CollapseAlike(x: string, y: string)
    requires SpaceAlike(x, y)
    ensures CollapseRuns(RegexSpace, x) == CollapseRuns(RegexSpace, y)
    decreases |x|
  {
    if |x| > 0 {
      SpaceAlikeTail(x, y);
      CollapseAlike(x[1..], y[1..]);
    }
  }

  /** The reference slug of two texts with separators between them is the
      two reference slugs joined by one dash, when each text has a
      non-separator on the side facing the separators. */
  lemma ReferenceJoin(x: string, sep: string, y: string)
    requires |x| > 0 && !IsSeparator(x[|x| - 1])
    requires |y| > 0 && !IsSeparator(y[0])
    requires |sep| > 0 && forall i :: 0 <= i < |sep| ==> IsSeparator(sep[i])
    ensures ReferenceSlug(x + sep + y) == ReferenceSlug(x) + "-" + ReferenceSlug(y)
  {
    var dx, d, dy := SeparatorsToDashes(x), SeparatorsToDashes(sep), SeparatorsToDashes(y);
    assert SeparatorsToDashes(x + sep + y) == dx + d + dy;
    assert !In(Dash, dx[|dx| - 1]) && !In(Dash, dy[0]);
    TrimJoin(Dash, dx, d, dy);
    JoinTrimmed(dx, d, dy);
  }

  lemma JoinTrimmed(dx: string, d: string, dy: string)
    requires |dx| > 0 && dx[|dx| - 1] != '-' && |dy| > 0 && dy[0] != '-'
    requires |d| > 0 && forall i :: 0 <= i < |d| ==> d[i] == '-'
    ensures CollapseRuns(Dash, DropRun(Dash, dx) + d + TrimRight(Dash, dy))
            == CollapseRuns(Dash, Trim(Dash, dx)) + "-" + CollapseRuns(Dash, Trim(Dash, dy))
  {
    var l, r := DropRun(Dash, dx), TrimRight(Dash, dy);
    DropRunKeepsLast(Dash, dx);
    TrimRightKeepsFirst(Dash, dy);
    assert l[|l| - 1] != '-' && r[0] != '-';
    CollapseAcross(l, d, r);
    TrimCommute(Dash, dy);
  }

  /** Separators before and after a text do not change its reference
      slug. */
  lemma ReferenceSurround(pre: string, x: string, post: string)
    requires forall i :: 0 <= i < |pre| ==> IsSeparator(pre[i])
    requires forall i :: 0 <= i < |post| ==> IsSeparator(post[i])
    ensures ReferenceSlug(pre + x + post) == ReferenceSlug(x)
  {
    var a, b := SeparatorsToDashes(pre), SeparatorsToDashes(post);
    assert SeparatorsToDashes(pre + x + post) == a + SeparatorsToDashes(x) + b;
    TrimPadded(Dash, a, SeparatorsToDashes(x), b);
  }

  /** Separators are their own lower-case form. */
  lemma SeparatorsOnly(n: Nid, s: string)
    requires forall i :: 0 <= i < |s| ==> IsSeparator(s[i])
    ensures Lower(s) == s && WordsAndSeparators(n, s)
  {
  }

  /** Lower-casing and being made of words and separators both go part by
      part. */
  lemma ThreeParts(n: Nid, a: string, b: string, c: string)
    requires WordsAndSeparators(n, a) && WordsAndSeparators(n, b) && WordsAndSeparators(n, c)
    ensures Lower(a + b + c) == Lower(a) + Lower(b) + Lower(c)
    ensures WordsAndSeparators(n, a + b + c)
  {
    var t := a + b + c;
    forall i | 0 <= i < |t| ensures WordChar(n, ToLower(t[i])) || IsSeparator(ToLower(t[i])) {
      if i < |a| { assert t[i] == a[i]; }
      else if i < |a| + |b| { assert t[i] == b[i - |a|]; }
      else { assert t[i] == c[i - |a| - |b|]; }
    }
  }

  /** Separators between two texts of words and separators, however many
      and of whatever kind, give the two nids joined by exactly one dash,
      when each text has a word character on the side facing them. */
  lemma JoinCase(n: Nid, x: string, sep: string, y: string)
    requires TableKeepsWords(n) && WordsAndSeparators(n, x) && WordsAndSeparators(n, y)
    requires |x| > 0 && !IsSeparator(ToLower(x[|x| - 1]))
    requires |y| > 0 && !IsSeparator(ToLower(y[0]))
    requires |sep| > 0 && forall i :: 0 <= i < |sep| ==> IsSeparator(sep[i])
    ensures Case(n, x + sep + y) == Case(n, x) + "-" + Case(n, y)
  {
    JoinLowered(n, x, sep, y);
    CaseOfWords(n, x + sep + y);
    CaseOfWords(n, x);
    CaseOfWords(n, y);
  }

  lemma JoinLowered(n: Nid, x: string, sep: string, y: string)
    requires WordsAndSeparators(n, x) && WordsAndSeparators(n, y)
    requires |x| > 0 && !IsSeparator(ToLower(x[|x| - 1]))
    requires |y| > 0 && !IsSeparator(ToLower(y[0]))
    requires |sep| > 0 && forall i :: 0 <= i < |sep| ==> IsSeparator(sep[i])
    ensures WordsAndSeparators(n, x + sep + y)
    ensures ReferenceSlug(Lower(x + sep + y)) == ReferenceSlug(Lower(x)) + "-" + ReferenceSlug(Lower(y))
  {
    SeparatorsOnly(n, sep);
    ThreeParts(n, x, sep, y);
    ReferenceJoin(Lower(x), sep, Lower(y));
  }

  /** Separators before and after a text produce nothing, whatever the text
      and whatever the configuration. */
  lemma SurroundCase(n: Nid, pre: string, x: string, post: string)
    requires forall i :: 0 <= i < |pre| ==> IsSeparator(pre[i])
    requires forall i :: 0 <= i < |post| ==> IsSeparator(post[i])
    ensures Case(n, pre + x + post) == Case(n, x)
  {
    SpacedThree(n, pre, x, post);
    SeparatorsSpaced(n, pre);
    SeparatorsSpaced(n, post);
    TrimPadded(UnicodeSpace, DashToSpace(n.dashSpace, Lower(pre)),
               DashToSpace(n.dashSpace, Lower(x)), DashToSpace(n.dashSpace, Lower(post)));
    assert Prepare(n, pre + x + post) == Prepare(n, x);
    if x == "" {
      assert Prepare(n, x) == [];
    }
  }

  lemma SpacedThree(n: Nid, a: string, x: string, b: string)
    ensures DashToSpace(n.dashSpace, Lower(a + x + b))
            == DashToSpace(n.dashSpace, Lower(a)) + DashToSpace(n.dashSpace, Lower(x))
               + DashToSpace(n.dashSpace, Lower(b))
  {
    SpacedTwo(n, a, x);
    SpacedTwo(n, a + x, b);
  }

  lemma SpacedTwo(n: Nid, a: string, b: string)
    ensures DashToSpace(n.dashSpace, Lower(a + b))
            == DashToSpace(n.dashSpace, Lower(a)) + DashToSpace(n.dashSpace, Lower(b))
  {
    var t := a + b;
    assert forall i :: 0 <= i < |t| ==> t[i] == if i < |a| then a[i] else b[i - |a|];
  }

  /** Separators become white space once prepared. */
  lemma SeparatorsSpaced(n: Nid, s: string)
    requires forall i :: 0 <= i < |s| ==> IsSeparator(s[i])
    ensures forall i :: 0 <= i < |s| ==> In(UnicodeSpace, DashToSpace(n.dashSpace, Lower(s))[i])
  {
  }

  /** A character inside a word whose replacement the strip pattern
      deletes entirely can be left out of the text: the nid is the same. */
  lemma DeleteInWord(n: Nid, a: string, c: char, b: string)
    requires |a| > 0 && InWord(a[|a| - 1]) && |b| > 0 && InWord(b[0])
    requires InWord(c) && Delete(n.stripPattern, Replace(n.transliterations, ToLower(c))) == []
    ensures Case(n, a + [c] + b) == Case(n, a + b)
  {
    var x := DashToSpace(n.dashSpace, Lower(a));
    var y := DashToSpace(n.dashSpace, Lower(b));
    var e := ToLower(c);
    PrepareAround(n, a, c, b);
    var l, r := DropRun(UnicodeSpace, x), TrimRight(UnicodeSpace, y);
    DropRunKeepsLast(UnicodeSpace, x);
    SquishAround(l, e, r);
    StripAround(n, CollapseRuns(RegexSpace, l), e, CollapseRuns(RegexSpace, r));
    assert Case(n, a + [c] + b)
           == Strip(n, Transliterate(n.transliterations, Squish(n.squishPattern, Prepare(n, a + [c] + b))));
    assert Case(n, a + b)
           == Strip(n, Transliterate(n.transliterations, Squish(n.squishPattern, Prepare(n, a + b))));
  }

  lemma PrepareAround(n: Nid, a: string, c: char, b: string)
    requires |a| > 0 && InWord(a[|a| - 1]) && |b| > 0 && InWord(b[0]) && InWord(c)
    ensures Prepare(n, a + [c] + b)
            == DropRun(UnicodeSpace, DashToSpace(n.dashSpace, Lower(a))) + [ToLower(c)]
               + TrimRight(UnicodeSpace, DashToSpace(n.dashSpace, Lower(b)))
    ensures Prepare(n, a + b)
            == DropRun(UnicodeSpace, DashToSpace(n.dashSpace, Lower(a)))
               + TrimRight(UnicodeSpace, DashToSpace(n.dashSpace, Lower(b)))
  {
    var x := DashToSpace(n.dashSpace, Lower(a));
    var y := DashToSpace(n.dashSpace, Lower(b));
    SpacedAround(n, a, c, b);
    WordEnds(n, a, b);
    TrimAround(UnicodeSpace, x, ToLower(c), y);
  }

  lemma WordEnds(n: Nid, a: string, b: string)
    requires |a| > 0 && InWord(a[|a| - 1]) && |b| > 0 && InWord(b[0])
    ensures !In(UnicodeSpace, DashToSpace(n.dashSpace, Lower(a))[|a| - 1])
    ensures !In(UnicodeSpace, DashToSpace(n.dashSpace, Lower(b))[0])
  {
  }

  lemma TrimAround(k: CharClass, x: string, e: char, y: string)
    requires |x| > 0 && !In(k, x[|x| - 1]) && |y| > 0 && !In(k, y[0])
    ensures Trim(k, x + [e] + y) == DropRun(k, x) + [e] + TrimRight(k, y)
    ensures Trim(k, x + y) == DropRun(k, x) + TrimRight(k, y)
  {
    assert !In(k, x[|x| - 1]) && !In(k, y[0]);
    TrimJoin(k, x, [e], y);
    TrimApart(k, x, y);
  }

  lemma TrimApart(k: CharClass, x: string, y: string)
    requires |x| > 0 && !In(k, x[|x| - 1]) && |y| > 0 && !In(k, y[0])
    ensures Trim(k, x + y) == DropRun(k, x) + TrimRight(k, y)
  {
    assert !In(k, x[|x| - 1]) && !In(k, y[0]);
    DropRunAppend(k, x, y);
    TrimRightAppend(k, DropRun(k, x), y);
  }

  lemma SpacedAround(n: Nid, a: string, c: char, b: string)
    requires InWord(c)
    ensures DashToSpace(n.dashSpace, Lower(a + [c] + b))
            == DashToSpace(n.dashSpace, Lower(a)) + [ToLower(c)] + DashToSpace(n.dashSpace, Lower(b))
    ensures DashToSpace(n.dashSpace, Lower(a + b))
            == DashToSpace(n.dashSpace, Lower(a)) + DashToSpace(n.dashSpace, Lower(b))
  {
    SpacedTwo(n, a, [c]);
    SpacedTwo(n, a + [c], b);
    SpacedTwo(n, a, b);
  }

  lemma SquishAround(l: string, e: char, r: string)
    requires |l| > 0 && !IsRegexSpace(l[|l| - 1]) && !IsRegexSpace(e)
    ensures CollapseRuns(RegexSpace, l + [e] + r)
            == CollapseRuns(RegexSpace, l) + [e] + CollapseRuns(RegexSpace, r)
    ensures CollapseRuns(RegexSpace, l + r) == CollapseRuns(RegexSpace, l) + CollapseRuns(RegexSpace, r)
  {
    assert l + [e] + r == l + ([e] + r);
    CollapseSplit(RegexSpace, l, [e] + r);
    assert ([e] + r)[1..] == r;
    CollapseSplit(RegexSpace, l, r);
  }

  lemma StripAround(n: Nid, u: string, e: char, v: string)
    requires Delete(n.stripPattern, Replace(n.transliterations, e)) == []
    ensures Strip(n, Transliterate(n.transliterations, u + [e] + v))
            == Strip(n, Transliterate(n.transliterations, u + v))
  {
    var t, p := n.transliterations, n.stripPattern;
    TransliterateOne(t, e);
    TransliterateMiddle(t, u, e, v);
    DeleteMiddle(p, Transliterate(t, u), Transliterate(t, [e]), Transliterate(t, v));
  }

  lemma TransliterateOne(t: Table, e: char)
    ensures Transliterate(t, [e]) == Replace(t, e)
  {
    assert [e][1..] == [];
  }

  lemma TransliterateMiddle(t: Table, u: string, e: char, v: string)
    ensures Transliterate(t, u + [e] + v) == Transliterate(t, u) + Transliterate(t, [e]) + Transliterate(t, v)
    ensures Transliterate(t, u + v) == Transliterate(t, u) + Transliterate(t, v)
  {
    TransliterateAppend(t, u + [e], v);
    TransliterateAppend(t, u, [e]);
    TransliterateAppend(t, u, v);
  }

  lemma DeleteMiddle(p: StripPattern, x: string, m: string, z: string)
    requires Delete(p, m) == []
    ensures Delete(p, x + m + z) == Delete(p, x + z)
  {
    DeleteAppend(p, x + m, z);
    DeleteAppend(p, x, m);
    DeleteAppend(p, x, z);
  }
}

=== FILE: runs.dfy ===
/** Runs of one character class: the hand-written counterparts of the
    fixed patterns `\s+` (replaced by one space), `-{1,}` (replaced by one
    dash) and of `strings.TrimSpace`. */
module Runs {
  import opened Chars

  /** The character classes whose runs are trimmed or collapsed. */
  datatype CharClass = RegexSpace | UnicodeSpace | Dash

  predicate In(k: CharClass, c: char) {
    match k
    case RegexSpace => IsRegexSpace(c)
    case UnicodeSpace => IsUnicodeSpace(c)
    case Dash => c == '-'
  }

  /** The single character a run of class `k` is replaced with. */
  function Rep(k: CharClass): (c: char)
    ensures In(k, c)
  {
    if k == Dash then '-' else ' '
  }

  /** True when two neighbouring characters of `s` are both in class `k`;
      for `Dash` this is "`s` contains `--`". */
  predicate HasAdjacent(k: CharClass, s: string) {
    exists i :: 0 <= i < |s| - 1 && In(k, s[i]) && In(k, s[i + 1])
  }

  /** Drops the leading run of class `k` (for `UnicodeSpace`, the left half
      of `strings.TrimSpace`). */
  function DropRun(k: CharClass, s: string): string
    decreases |s|
  {
    if |s| > 0 && In(k, s[0]) then DropRun(k, s[1..]) else s
  }

  /** `DropRun` keeps a suffix, drops only class characters, and stops at
      the first character outside the class. */
  lemma {:induction false} DropRunShape(k: CharClass, s: string)
    ensures |DropRun(k, s)| <= |s| && DropRun(k, s) == s[|s| - |DropRun(k, s)|..]
    ensures forall i :: 0 <= i < |s| - |DropRun(k, s)| ==> In(k, s[i])
    ensures DropRun(k, s) == [] || !In(k, DropRun(k, s)[0])
    decreases |s|
  {
    if |s| > 0 && In(k, s[0]) {
      DropRunShape(k, s[1..]);
      forall i | 0 < i < |s| - |DropRun(k, s)| ensures In(k, s[i]) {
        assert s[i] == s[1..][i - 1];
      }
    }
  }

  /** Drops the trailing run of class `k`. */
  function TrimRight(k: CharClass, s: string): string
    decreases |s|
  {
    if |s| > 0 && In(k, s[|s| - 1]) then TrimRight(k, s[..|s| - 1]) else s
  }

  /** `TrimRight` keeps a prefix, drops only class characters, and stops at
      the last character outside the class. */
  lemma {:induction false} TrimRightShape(k: CharClass, s: string)
    ensures |TrimRight(k, s)| <= |s| && TrimRight(k, s) == s[..|TrimRight(k, s)|]
    ensures forall i :: |TrimRight(k, s)| <= i < |s| ==> In(k, s[i])
    ensures TrimRight(k, s) == [] || !In(k, TrimRight(k, s)[|TrimRight(k, s)| - 1])
    decreases |s|
  {
    if |s| > 0 && In(k, s[|s| - 1]) {
      var m := |s| - 1;
      TrimRightShape(k, s[..m]);
      forall i | |TrimRight(k, s)| <= i < m ensures In(k, s[i]) {
        assert s[i] == s[..m][i];
      }
    }
  }

  /** `s` is `r` with a run of class `k` added at each end. */
  ghost predicate Padded(k: CharClass, s: string, r: string) {
    exists a, b :: s == a + r + b && (forall i :: 0 <= i < |a| ==> In(k, a[i]))
                   && (forall i :: 0 <= i < |b| ==> In(k, b[i]))
  }

  /** Drops both the leading and the trailing run of class `k`;
      `Trim(UnicodeSpace, s)` is `strings.TrimSpace(s)`. What is left is `s`
      with a class run taken off each end, and starts and ends outside the
      class. */
  function Trim(k: CharClass, s: string): (r: string)
    ensures |r| <= |s|
    ensures r == [] || (!In(k, r[0]) && !In(k, r[|r| - 1]))
    ensures forall c :: c in r ==> c in s
    ensures Padded(k, s, r)
  {
    TrimSplit(k, s);
    TrimRight(k, DropRun(k, s))
  }

  /** `s` is the dropped leading run, what `Trim` keeps, and the dropped
      trailing run. */
  lemma TrimSplit(k: CharClass, s: string)
    ensures var r := TrimRight(k, DropRun(k, s));
            |r| <= |s| && (r == [] || (!In(k, r[0]) && !In(k, r[|r| - 1])))
            && (forall c :: c in r ==> c in s)
            && Padded(k, s, r)
  {
    var d := DropRun(k, s);
    var r := TrimRight(k, d);
    var a := DroppedRun(k, s);
    var b := TrimmedRun(k, d);
    ThreeInside(s, a, r, b);
  }

  lemma ThreeInside(s: string, a: string, r: string, b: string)
    requires s == a + (r + b)
    ensures s == a + r + b && forall c :: c in r ==> c in s
  {
    assert forall i :: 0 <= i < |r| ==> s[|a| + i] == r[i];
  }

  /** Text that already starts and ends outside the class is its own
      trim. */
  lemma TrimFixed(k: CharClass, s: string)
    requires s == [] || (!In(k, s[0]) && !In(k, s[|s| - 1]))
    ensures Trim(k, s) == s
  {
    DropRunPrefix(k, [], s);
    assert [] + s == s;
    TrimRightSuffix(k, s, []);
    assert s + [] == s;
  }

  /** Replaces every maximal run of class `k` by the one character
      `Rep(k)`, as a greedy `ReplaceAllString` of `\s+` or `-{1,}` does: a
      class character followed by another one is dropped, and the last one
      of each run becomes `Rep(k)`. */
  function CollapseRuns(k: CharClass, s: string): string
    decreases |s|
  {
    if |s| == 0 then []
    else if |s| > 1 && In(k, s[0]) && In(k, s[1]) then CollapseRuns(k, s[1..])
    else [if In(k, s[0]) then Rep(k) else s[0]] + CollapseRuns(k, s[1..])
  }

  /** The collapsed string holds `Rep(k)` and the characters of `s` outside
      the class, never two class characters in a row, and starts with the
      first character of `s` (as `Rep(k)` when it is in the class). */
  lemma {:induction false} CollapseShape(k: CharClass, s: string)
    ensures forall c :: c in CollapseRuns(k, s) ==> c == Rep(k) || (c in s && !In(k, c))
    ensures !HasAdjacent(k, CollapseRuns(k, s))
    ensures |s| > 0 ==> |CollapseRuns(k, s)| > 0
                        && CollapseRuns(k, s)[0] == (if In(k, s[0]) then Rep(k) else s[0])
    decreases |s|
  {
    if |s| > 0 {
      CollapseShape(k, s[1..]);
    }
  }

  /** The characters of `s` outside class `k`, in order. */
  function Others(k: CharClass, s: string): (r: string)
    ensures forall c :: c in r <==> c in s && !In(k, c)
  {
    if |s| == 0 then []
    else if In(k, s[0]) then Others(k, s[1..])
    else [s[0]] + Others(k, s[1..])
  }

  /** Collapsing touches only the runs: the characters outside the class
      survive, all of them and in their order. */
  lemma {:induction false} CollapseKeepsOthers(k: CharClass, s: string)
    ensures Others(k, CollapseRuns(k, s)) == Others(k, s)
    decreases |s|
  {
    if |s| > 0 {
      CollapseKeepsOthers(k, s[1..]);
      if !(|s| > 1 && In(k, s[0]) && In(k, s[1])) {
        var c := if In(k, s[0]) then Rep(k) else s[0];
        assert CollapseRuns(k, s) == [c] + CollapseRuns(k, s[1..]);
        assert ([c] + CollapseRuns(k, s[1..]))[1..] == CollapseRuns(k, s[1..]);
      }
    }
  }

  /** A string whose runs are already single `Rep(k)` characters is left
      as it is. */
  lemma {:induction false} CollapseFixed(k: CharClass, s: string)
    requires !HasAdjacent(k, s)
    requires forall i :: 0 <= i < |s| && In(k, s[i]) ==> s[i] == Rep(k)
    ensures CollapseRuns(k, s) == s
    decreases |s|
  {
    if |s| > 0 {
      assert !HasAdjacent(k, s[1..]) by {
        forall i | 0 <= i < |s[1..]| - 1
          ensures !(In(k, s[1..][i]) && In(k, s[1..][i + 1]))
        {
          assert s[1..][i] == s[i + 1] && s[1..][i + 1] == s[i + 2];
        }
      }
      CollapseFixed(k, s[1..]);
      if |s| > 1 {
        assert !(In(k, s[0]) && In(k, s[1]));
      }
      assert s == [s[0]] + s[1..];
    }
  }

  /** Where no two class characters are neighbours, collapsing only
      replaces each class character by `Rep(k)`. */
  lemma {:induction false} CollapseIsolated(k: CharClass, s: string)
    requires k != UnicodeSpace && !HasAdjacent(k, s)
    ensures |CollapseRuns(k, s)| == |s|
    ensures forall i :: 0 <= i < |s| ==>
              CollapseRuns(k, s)[i] == if In(k, s[i]) then Rep(k) else s[i]
    decreases |s|
  {
    if |s| > 0 {
      assert !HasAdjacent(k, s[1..]) by {
        forall i | 0 <= i < |s[1..]| - 1
          ensures !(In(k, s[1..][i]) && In(k, s[1..][i + 1]))
        {
          assert s[1..][i] == s[i + 1] && s[1..][i + 1] == s[i + 2];
        }
      }
      CollapseIsolated(k, s[1..]);
      if |s| > 1 {
        assert !(In(k, s[0]) && In(k, s[1]));
      }
      var c := if In(k, s[0]) then Rep(k) else s[0];
      assert CollapseRuns(k, s) == [c] + CollapseRuns(k, s[1..]);
    }
  }

  /** Collapsing twice is collapsing once. */
  lemma CollapseIdempotent(k: CharClass, s: string)
    ensures CollapseRuns(k, CollapseRuns(k, s)) == CollapseRuns(k, s)
  {
    var r := CollapseRuns(k, s);
    CollapseShape(k, s);
    forall i | 0 <= i < |r| && In(k, r[i])
      ensures r[i] == Rep(k)
    {
      assert r[i] in r;
    }
    CollapseFixed(k, r);
  }

  /** A leading run that ends where `b` starts is dropped exactly. */
  lemma {:induction false} DropRunPrefix(k: CharClass, a: string, b: string)
    requires forall i :: 0 <= i < |a| ==> In(k, a[i])
    requires b == [] || !In(k, b[0])
    ensures DropRun(k, a + b) == b
    decreases |a|
  {
    if |a| == 0 {
      assert a + b == b;
    } else {
      assert (a + b)[1..] == a[1..] + b;
      DropRunPrefix(k, a[1..], b);
    }
  }

  /** A trailing run that starts where `a` ends is dropped exactly. */
  lemma {:induction false} TrimRightSuffix(k: CharClass, a: string, b: string)
    requires a == [] || !In(k, a[|a| - 1])
    requires forall i :: 0 <= i < |b| ==> In(k, b[i])
    ensures TrimRight(k, a + b) == a
    decreases |b|
  {
    if |b| == 0 {
      assert a + b == a;
    } else {
      var m := |b| - 1;
      assert (a + b)[..|a + b| - 1] == a + b[..m];
      TrimRightSuffix(k, a, b[..m]);
    }
  }

  /** A leading run of class characters makes no difference to
      `DropRun`. */
  lemma {:induction false} DropRunSkip(k: CharClass, a: string, z: string)
    requires forall i :: 0 <= i < |a| ==> In(k, a[i])
    ensures DropRun(k, a + z) == DropRun(k, z)
    decreases |a|
  {
    if |a| == 0 {
      assert a + z == z;
    } else {
      assert (a + z)[1..] == a[1..] + z;
      DropRunSkip(k, a[1..], z);
    }
  }

  /** A trailing run of class characters makes no difference to
      `TrimRight`. */
  lemma {:induction false} TrimRightSkip(k: CharClass, z: string, b: string)
    requires forall i :: 0 <= i < |b| ==> In(k, b[i])
    ensures TrimRight(k, z + b) == TrimRight(k, z)
    decreases |b|
  {
    if |b| == 0 {
      assert z + b == z;
    } else {
      var m := |b| - 1;
      assert (z + b)[..|z + b| - 1] == z + b[..m];
      TrimRightSkip(k, z, b[..m]);
    }
  }

  /** Once `x` holds a character outside the class, what follows `x` is
      kept by `DropRun`. */
  lemma {:induction false} DropRunAppend(k: CharClass, x: string, z: string)
    requires exists i :: 0 <= i < |x| && !In(k, x[i])
    ensures DropRun(k, x + z) == DropRun(k, x) + z
    decreases |x|
  {
    assert (x + z)[0] == x[0];
    if In(k, x[0]) {
      var i :| 0 <= i < |x| && !In(k, x[i]);
      assert !In(k, x[1..][i - 1]);
      assert (x + z)[1..] == x[1..] + z;
      DropRunAppend(k, x[1..], z);
    }
  }

  /** Once `y` holds a character outside the class, what precedes `y` is
      kept by `TrimRight`. */
  lemma {:induction false} TrimRightAppend(k: CharClass, z: string, y: string)
    requires exists i :: 0 <= i < |y| && !In(k, y[i])
    ensures TrimRight(k, z + y) == z + TrimRight(k, y)
    decreases |y|
  {
    var m := |y| - 1;
    assert (z + y)[|z + y| - 1] == y[m];
    if In(k, y[m]) {
      var i :| 0 <= i < |y| && !In(k, y[i]);
      assert !In(k, y[..m][i]);
      assert (z + y)[..|z + y| - 1] == z + y[..m];
      TrimRightAppend(k, z, y[..m]);
    }
  }

  /** A class run on each side of `m` is trimmed exactly. */
  lemma TrimBetween(k: CharClass, a: string, m: string, b: string)
    requires forall i :: 0 <= i < |a| ==> In(k, a[i])
    requires |m| > 0 && !In(k, m[0]) && !In(k, m[|m| - 1])
    requires forall i :: 0 <= i < |b| ==> In(k, b[i])
    ensures Trim(k, a + m + b) == m
  {
    assert a + m + b == a + (m + b);
    DropRunPrefix(k, a, m + b);
    TrimRightSuffix(k, m, b);
  }

  /** Collapsing splits at a point just after a character outside the
      class. */
  lemma {:induction false} CollapseSplit(k: CharClass, a: string, b: string)
    requires k != UnicodeSpace
    requires a == [] || !In(k, a[|a| - 1])
    ensures CollapseRuns(k, a + b) == CollapseRuns(k, a) + CollapseRuns(k, b)
    decreases |a|
  {
    if |a| == 0 {
      assert a + b == b;
    } else {
      var s := a + b;
      assert s[0] == a[0] && s[1..] == a[1..] + b;
      CollapseSplit(k, a[1..], b);
      if |a| == 1 {
        assert !In(k, s[0]);
        assert CollapseRuns(k, s) == [s[0]] + CollapseRuns(k, b);
      } else {
        assert s[1] == a[1];
      }
    }
  }

  /** A run of class characters in front of a character outside the class
      becomes one `Rep(k)`. */
  lemma {:induction false} CollapseRun(k: CharClass, d: string, v: string)
    requires k != UnicodeSpace
    requires |d| > 0 && forall i :: 0 <= i < |d| ==> In(k, d[i])
    requires v == [] || !In(k, v[0])
    ensures CollapseRuns(k, d + v) == [Rep(k)] + CollapseRuns(k, v)
    decreases |d|
  {
    assert (d + v)[1..] == d[1..] + v;
    if |d| > 1 {
      CollapseRun(k, d[1..], v);
    }
  }

  /** Class runs added at either end make no difference to `Trim`. */
  lemma TrimPadded(k: CharClass, a: string, x: string, b: string)
    requires forall i :: 0 <= i < |a| ==> In(k, a[i])
    requires forall i :: 0 <= i < |b| ==> In(k, b[i])
    ensures Trim(k, a + x + b) == Trim(k, x)
  {
    assert a + x + b == a + (x + b);
    DropRunSkip(k, a, x + b);
    if exists i :: 0 <= i < |x| && !In(k, x[i]) {
      DropRunAppend(k, x, b);
      TrimRightSkip(k, DropRun(k, x), b);
    } else {
      assert x + b + [] == x + b && x + [] == x;
      DropRunSkip(k, x + b, []);
      DropRunSkip(k, x, []);
    }
  }

  /** Trimming text that has characters outside the class on both sides of
      a middle part keeps the middle part whole. */
  lemma TrimJoin(k: CharClass, x: string, d: string, y: string)
    requires exists i :: 0 <= i < |x| && !In(k, x[i])
    requires exists i :: 0 <= i < |y| && !In(k, y[i])
    ensures Trim(k, x + d + y) == DropRun(k, x) + d + TrimRight(k, y)
  {
    assert x + d + y == x + (d + y);
    DropRunAppend(k, x, d + y);
    assert DropRun(k, x) + (d + y) == (DropRun(k, x) + d) + y;
    TrimRightAppend(k, DropRun(k, x) + d, y);
  }

  /** The two halves of `Trim` may be taken in either order. */
  lemma TrimCommute(k: CharClass, y: string)
    ensures DropRun(k, TrimRight(k, y)) == TrimRight(k, DropRun(k, y))
  {
    var d := DropRun(k, y);
    var m := TrimRight(k, d);
    var a := DroppedRun(k, y);
    var b := TrimmedRun(k, d);
    assert y == a + (m + b);
    assert a + (m + b) == a + m + b;
    TrimMiddle(k, a, m, b);
  }

  /** `s` is the run `DropRun` drops followed by what it keeps. */
  lemma DroppedRun(k: CharClass, s: string) returns (a: string)
    ensures s == a + DropRun(k, s)
    ensures forall i :: 0 <= i < |a| ==> In(k, a[i])
    ensures DropRun(k, s) == [] || !In(k, DropRun(k, s)[0])
  {
    DropRunShape(k, s);
    a := s[..|s| - |DropRun(k, s)|];
  }

  /** `s` is what `TrimRight` keeps followed by the run it drops; the kept
      part starts where `s` starts. */
  lemma TrimmedRun(k: CharClass, s: string) returns (b: string)
    ensures s == TrimRight(k, s) + b
    ensures forall i :: 0 <= i < |b| ==> In(k, b[i])
    ensures TrimRight(k, s) == [] || (TrimRight(k, s)[0] == s[0]
              && !In(k, TrimRight(k, s)[|TrimRight(k, s)| - 1]))
  {
    TrimRightShape(k, s);
    b := s[|TrimRight(k, s)|..];
  }

  /** Trimming the right end first also leaves the middle part. */
  lemma TrimMiddle(k: CharClass, a: string, m: string, b: string)
    requires forall i :: 0 <= i < |a| ==> In(k, a[i])
    requires m == [] || (!In(k, m[0]) && !In(k, m[|m| - 1]))
    requires forall i :: 0 <= i < |b| ==> In(k, b[i])
    ensures DropRun(k, TrimRight(k, a + m + b)) == m
  {
    if |m| == 0 {
      assert a + m + b == [] + (a + b);
      TrimRightSuffix(k, [], a + b);
    } else {
      assert a + m + b == (a + m) + b;
      TrimRightSuffix(k, a + m, b);
      DropRunPrefix(k, a, m);
    }
  }

  /** A run of dashes between two parts that each hold a non-dash collapses
      to one dash, and each part collapses on its own, without the dashes at
      the side facing the run. */
  lemma CollapseAcross(l: string, d: string, r: string)
    requires exists i :: 0 <= i < |l| && l[i] != '-'
    requires |d| > 0 && forall i :: 0 <= i < |d| ==> d[i] == '-'
    requires exists i :: 0 <= i < |r| && r[i] != '-'
    ensures CollapseRuns(Dash, l + d + r)
            == CollapseRuns(Dash, TrimRight(Dash, l)) + "-" + CollapseRuns(Dash, DropRun(Dash, r))
  {
    var m := RunAcross(Dash, l, d, r);
    CollapseSplit(Dash, TrimRight(Dash, l), m + DropRun(Dash, r));
    CollapseRun(Dash, m, DropRun(Dash, r));
  }

  /** Around a run `d` of class `k`, `l + d + r` is the right-trimmed left
      part, one longer run, and the left-trimmed right part. */
  lemma RunAcross(k: CharClass, l: string, d: string, r: string) returns (m: string)
    requires exists i :: 0 <= i < |l| && !In(k, l[i])
    requires |d| > 0 && forall i :: 0 <= i < |d| ==> In(k, d[i])
    ensures l + d + r == TrimRight(k, l) + (m + DropRun(k, r))
    ensures |m| > 0 && forall i :: 0 <= i < |m| ==> In(k, m[i])
    ensures |TrimRight(k, l)| > 0 && !In(k, TrimRight(k, l)[|TrimRight(k, l)| - 1])
    ensures DropRun(k, r) == [] || !In(k, DropRun(k, r)[0])
  {
    var tl := TrimRight(k, l);
    var dr := DropRun(k, r);
    TrimRightShape(k, l);
    DropRunShape(k, r);
    var ld := l[|tl|..];
    var rd := r[..|r| - |dr|];
    assert l == tl + ld && r == rd + dr;
    m := ld + d + rd;
    RunOfRuns(k, ld, d, rd);
    Regroup(tl, ld, d, rd, dr);
  }

  /** Three runs of one class make one run. */
  lemma RunOfRuns(k: CharClass, a: string, b: string, c: string)
    requires forall i :: 0 <= i < |a| ==> In(k, a[i])
    requires forall i :: 0 <= i < |b| ==> In(k, b[i])
    requires forall i :: 0 <= i < |c| ==> In(k, c[i])
    ensures forall i :: 0 <= i < |a + b + c| ==> In(k, (a + b + c)[i])
  {
  }

  lemma Regroup(a: string, b: string, c: string, e: string, f: string)
    ensures (a + b) + c + (e + f) == a + ((b + c + e) + f)
  {
  }

  /** A string ending outside the class keeps its last character when its
      leading run is dropped. */
  lemma DropRunKeepsLast(k: CharClass, x: string)
    requires |x| > 0 && !In(k, x[|x| - 1])
    ensures |DropRun(k, x)| > 0 && DropRun(k, x)[|DropRun(k, x)| - 1] == x[|x| - 1]
  {
    DropRunShape(k, x);
  }

  /** A string starting outside the class keeps its first character when
      its trailing run is dropped. */
  lemma TrimRightKeepsFirst(k: CharClass, y: string)
    requires |y| > 0 && !In(k, y[0])
    ensures |TrimRight(k, y)| > 0 && TrimRight(k, y)[0] == y[0]
  {
    TrimRightShape(k, y);
  }

  /** Where `s` does not start with two class characters, collapsing keeps
      its first character, as `Rep(k)` when it is in the class. */
  lemma CollapseHead(k: CharClass, s: string)
    requires |s| > 0 && !(|s| > 1 && In(k, s[0]) && In(k, s[1]))
    ensures CollapseRuns(k, s) == [if In(k, s[0]) then Rep(k) else s[0]] + CollapseRuns(k, s[1..])
  {
  }
}

=== FILE: transliteration.dfy ===
/** The two transliteration tables, a `strings.Replacer` each. Every key
    is a single code point, so replacing is a per-character flat map. */
module Transliteration {
  import opened Wrappers
  import opened Chars

  /** Which of the two tables a configuration uses. */
  datatype Table = Plain | WithSwedish

  /** Every key of both tables: space, underscore, and code points from the
      multiplication sign up to ž. Code points outside it are not looked up
      in the tables. */
  predicate InKeyRange(c: char) {
    c == ' ' || c == '_' || '×' <= c <= 'ž'
  }

  /** The default table: every listed letter to plain ASCII. */
  function PlainEntry(c: char): (r: Option<string>)
    ensures r.Some? ==> InKeyRange(c) && 1 <= |r.value| <= 2
    ensures c == 'ä' || c == 'å' || c == 'æ' ==> r == Some("a")
    ensures c == 'ö' || c == 'ø' ==> r == Some("o")
  {
    if !InKeyRange(c) then None else
    match c
    case ' ' => Some("-")
    case '_' => Some("-")
    case '×' => Some("x")
    case 'ß' => Some("ss")
    case 'à' => Some("a")
    case 'á' => Some("a")
    case 'â' => Some("a")
    case 'ã' => Some("a")
    case 'ä' => Some("a")
    case 'å' => Some("a")
    case 'æ' => Some("a")
    case 'ç' => Some("c")
    case 'è' => Some("e")
    case 'é' => Some("e")
    case 'ê' => Some("e")
    case 'ë' => Some("e")
    case 'ì' => Some("i")
    case 'í' => Some("i")
    case 'î' => Some("i")
    case 'ï' => Some("i")
    case 'ð' => Some("d")
    case 'ñ' => Some("n")
    case 'ò' => Some("o")
    case 'ó' => Some("o")
    case 'ô' => Some("o")
    case 'õ' => Some("o")
    case 'ö' => Some("o")
    case 'ø' => Some("o")
    case 'ù' => Some("u")
    case 'ú' => Some("u")
    case 'û' => Some("u")
    case 'ü' => Some("u")
    case 'ý' => Some("y")
    case 'þ' => Some("th")
    case 'ÿ' => Some("y")
    case 'ā' => Some("a")
    case 'ă' => Some("a")
    case 'ą' => Some("a")
    case 'ć' => Some("c")
    case 'ĉ' => Some("c")
    case 'ċ' => Some("c")
    case 'č' => Some("c")
    case 'ď' => Some("d")
    case 'đ' => Some("d")
    case 'ē' => Some("e")
    case 'ĕ' => Some("e")
    case 'ė' => Some("e")
    case 'ę' => Some("e")
    case 'ě' => Some("e")
    case 'ĝ' => Some("g")
    case 'ğ' => Some("g")
    case 'ġ' => Some("g")
    case 'ģ' => Some("g")
    case 'ĥ' => Some("h")
    case 'ħ' => Some("h")
    case 'ĩ' => Some("i")
    case 'ī' => Some("i")
    case 'ĭ' => Some("i")
    case 'į' => Some("i")
    case 'ı' => Some("i")
    case 'ĳ' => Some("ij")
    case 'ĵ' => Some("j")
    case 'ķ' => Some("k")
    case 'ĸ' => Some("k")
    case 'ĺ' => Some("l")
    case 'ļ' => Some("l")
    case 'ľ' => Some("l")
    case 'ŀ' => Some("l")
    case 'ł' => Some("l")
    case 'ń' => Some("n")
    case 'ņ' => Some("n")
    case 'ň' => Some("n")
    case 'ŉ' => Some("'n")
    case 'ŋ' => Some("ng")
    case 'ō' => Some("o")
    case 'ŏ' => Some("o")
    case 'ő' => Some("o")
    case 'œ' => Some("oe")
    case 'ŕ' => Some("r")
    case 'ŗ' => Some("r")
    case 'ř' => Some("r")
    case 'ś' => Some("s")
    case 'ŝ' => Some("s")
    case 'ş' => Some("s")
    case 'š' => Some("s")
    case 'ţ' => Some("t")
    case 'ť' => Some("t")
    case 'ŧ' => Some("t")
    case 'ũ' => Some("u")
    case 'ū' => Some("u")
    case 'ŭ' => Some("u")
    case 'ů' => Some("u")
    case 'ű' => Some("u")
    case 'ų' => Some("u")
    case 'ŵ' => Some("w")
    case 'ŷ' => Some("y")
    case 'ź' => Some("z")
    case 'ż' => Some("z")
    case 'ž' => Some("z")
    case _ => None
  }

  /** The table of the preset that keeps å, ä and ö (and maps æ and ø
      onto ä and ö). */
  function SwedishEntry(c: char): (r: Option<string>)
    ensures r.Some? ==> InKeyRange(c) && 1 <= |r.value| <= 2
    ensures c == 'å' ==> r == Some("å")
    ensures c == 'ä' || c == 'æ' ==> r == Some("ä")
    ensures c == 'ö' || c == 'ø' ==> r == Some("ö")
  {
    if !InKeyRange(c) then None else
    match c
    case ' ' => Some("-")
    case '_' => Some("-")
    case '×' => Some("x")
    case 'ß' => Some("ss")
    case 'à' => Some("a")
    case 'á' => Some("a")
    case 'â' => Some("a")
    case 'ã' => Some("a")
    case 'ä' => Some("ä")
    case 'å' => Some("å")
    case 'æ' => Some("ä")
    case 'ç' => Some("c")
    case 'è' => Some("e")
    case 'é' => Some("e")
    case 'ê' => Some("e")
    case 'ë' => Some("e")
    case 'ì' => Some("i")
    case 'í' => Some("i")
    case 'î' => Some("i")
    case 'ï' => Some("i")
    case 'ð' => Some("d")
    case 'ñ' => Some("n")
    case 'ò' => Some("o")
    case 'ó' => Some("o")
    case 'ô' => Some("o")
    case 'õ' => Some("o")
    case 'ö' => Some("ö")
    case 'ø' => Some("ö")
    case 'ù' => Some("u")
    case 'ú' => Some("u")
    case 'û' => Some("u")
    case 'ü' => Some("u")
    case 'ý' => Some("y")
    case 'þ' => Some("th")
    case 'ÿ' => Some("y")
    case 'ā' => Some("a")
    case 'ă' => Some("a")
    case 'ą' => Some("a")
    case 'ć' => Some("c")
    case 'ĉ' => Some("c")
    case 'ċ' => Some("c")
    case 'č' => Some("c")
    case 'ď' => Some("d")
    case 'đ' => Some("d")
    case 'ē' => Some("e")
    case 'ĕ' => Some("e")
    case 'ė' => Some("e")
    case 'ę' => Some("e")
    case 'ě' => Some("e")
    case 'ĝ' => Some("g")
    case 'ğ' => Some("g")
    case 'ġ' => Some("g")
    case 'ģ' => Some("g")
    case 'ĥ' => Some("h")
    case 'ħ' => Some("h")
    case 'ĩ' => Some("i")
    case 'ī' => Some("i")
    case 'ĭ' => Some("i")
    case 'į' => Some("i")
    case 'ı' => Some("i")
    case 'ĳ' => Some("ij")
    case 'ĵ' => Some("j")
    case 'ķ' => Some("k")
    case 'ĸ' => Some("k")
    case 'ĺ' => Some("l")
    case 'ļ' => Some("l")
    case 'ľ' => Some("l")
    case 'ŀ' => Some("l")
    case 'ł' => Some("l")
    case 'ń' => Some("n")
    case 'ņ' => Some("n")
    case 'ň' => Some("n")
    case 'ŉ' => Some("'n")
    case 'ŋ' => Some("ng")
    case 'ō' => Some("o")
    case 'ŏ' => Some("o")
    case 'ő' => Some("o")
    case 'œ' => Some("oe")
    case 'ŕ' => Some("r")
    case 'ŗ' => Some("r")
    case 'ř' => Some("r")
    case 'ś' => Some("s")
    case 'ŝ' => Some("s")
    case 'ş' => Some("s")
    case 'š' => Some("s")
    case 'ţ' => Some("t")
    case 'ť' => Some("t")
    case 'ŧ' => Some("t")
    case 'ũ' => Some("u")
    case 'ū' => Some("u")
    case 'ŭ' => Some("u")
    case 'ů' => Some("u")
    case 'ű' => Some("u")
    case 'ų' => Some("u")
    case 'ŵ' => Some("w")
    case 'ŷ' => Some("y")
    case 'ź' => Some("z")
    case 'ż' => Some("z")
    case 'ž' => Some("z")
    case _ => None
  }

  function Entry(t: Table, c: char): Option<string> {
    match t
    case Plain => PlainEntry(c)
    case WithSwedish => SwedishEntry(c)
  }

  /** What one character is replaced with: its table entry, or itself when
      the table has no entry for it. Code points outside the key range,
      ASCII lower-case letters, digits and the dash are kept. */
  function Replace(t: Table, c: char): (r: string)
    ensures !InKeyRange(c) ==> r == [c]
    ensures IsAsciiLower(c) || IsDigit(c) || c == '-' ==> r == [c]
  {
    match Entry(t, c)
    case Some(r) => r
    case None => [c]
  }

  /** A character is kept exactly when the table has no entry for it or
      maps it to itself; a keyed character becomes its entry. */
  lemma ReplaceKept(t: Table, c: char)
    ensures Replace(t, c) == [c] <==> Entry(t, c).None? || Entry(t, c) == Some([c])
    ensures Entry(t, c).Some? ==> Replace(t, c) == Entry(t, c).value
  {
  }

  /** `Transliterations.Replace(s)`: every character replaced, left to
      right, in one pass. */
  function Transliterate(t: Table, s: string): (r: string)
    ensures |s| == 1 ==> r == Replace(t, s[0])
    ensures (forall i :: 0 <= i < |s| ==> Entry(t, s[i]).None?) ==> r == s
    ensures forall c :: c in r ==> exists i :: 0 <= i < |s| && c in Replace(t, s[i])
  {
    if |s| == 0 then [] else Replace(t, s[0]) + Transliterate(t, s[1..])
  }

  /** Replacing is a per-character flat map, so it distributes over
      concatenation. */
  lemma {:induction false} TransliterateAppend(t: Table, a: string, b: string)
    ensures Transliterate(t, a + b) == Transliterate(t, a) + Transliterate(t, b)
    decreases |a|
  {
    if |a| > 0 {
      var c := a + b;
      assert c[0] == a[0] && c[1..] == a[1..] + b;
      TransliterateAppend(t, a[1..], b);
    } else {
      assert a + b == b;
    }
  }

  /** A replacement string holds only lower-case ASCII letters, the dash
      for space and underscore, the apostrophe of `ŉ` -> `'n`, and (in the
      Swedish table) å, ä and ö. */
  lemma ReplacementAlphabet(t: Table, c: char, x: char)
    requires Entry(t, c).Some? && x in Entry(t, c).value
    ensures IsAsciiLower(x) || x == '-' || x == '\''
            || (t == WithSwedish && IsSwedishLetter(x))
    ensures x == '\'' ==> c == 'ŉ'
  {
    match t
    case Plain => PlainAlphabet(c, x);
    case WithSwedish => SwedishAlphabet(c, x);
  }

  lemma PlainAlphabet(c: char, x: char)
    requires PlainEntry(c).Some? && x in PlainEntry(c).value
    ensures IsAsciiLower(x) || x == '-' || x == '\''
    ensures x == '\'' ==> c == 'ŉ'
  {
  }

  lemma SwedishAlphabet(c: char, x: char)
    requires SwedishEntry(c).Some? && x in SwedishEntry(c).value
    ensures IsAsciiLower(x) || x == '-' || x == '\'' || IsSwedishLetter(x)
    ensures x == '\'' ==> c == 'ŉ'
  {
  }

  /** The two tables differ only at å, ä, ö, æ and ø: the Swedish table keeps
      the first three and maps æ to ä and ø to ö, the default one maps all five
      to a or o. */
  lemma TableDifference(c: char)
    ensures c !in "åäöæø" ==> PlainEntry(c) == SwedishEntry(c)
    ensures PlainEntry('å') == PlainEntry('ä') == PlainEntry('æ') == Some("a")
    ensures PlainEntry('ö') == PlainEntry('ø') == Some("o")
    ensures SwedishEntry('å') == Some("å")
    ensures SwedishEntry('ä') == SwedishEntry('æ') == Some("ä")
    ensures SwedishEntry('ö') == SwedishEntry('ø') == Some("ö")
  {
  }

  /** Where every character has a one-character replacement, transliterating
      is a character-by-character map. */
  lemma {:induction false} TransliterateSingles(t: Table, s: string, r: string)
    requires |r| == |s|
    requires forall i :: 0 <= i < |s| ==> Replace(t, s[i]) == [r[i]]
    ensures Transliterate(t, s) == r
    decreases |s|
  {
    if |s| > 0 {
      TransliterateSingles(t, s[1..], r[1..]);
      assert r == [r[0]] + r[1..];
    }
  }
}

=== FILE: vectors.dfy ===
/** The vectors of the package's tests (nid_test.go), each checked against
    the preset it holds for, with the default-preset result alongside where
    the two presets part, and a few more that show the edges of `Case`. */
module Vectors {
  import opened Chars
  import opened Runs
  import opened Transliteration
  import opened Config
  import opened Pipeline
  import opened Properties

  /** The empty text gives the empty nid under any configuration. */
  lemma EmptyText(n: Nid)
    ensures Case(n, "") == ""
  {
  }

  /** A space between words becomes a dash. */
  lemma SpaceToDash()
    ensures Case(Default, "foo bar bee") == "foo-bar-bee"
  {
    SpaceToDashSlug();
    SpaceToDashLowered0();
    SpaceToDashLowered1();
    SpaceToDashLowered2();
    SpaceToDashLowered3();
    SpaceToDashLowered4();
    SpaceToDashLowered5();
    CaseOfSpelling(Default, "foo bar bee", "foo-bar-bee");
  }

  lemma SpaceToDashSlug()
    ensures IsSlug(Default, "foo-bar-bee")
  {
  }

  lemma SpaceToDashLowered0()
    ensures forall i :: 0 <= i < 2 ==> LowersTo("foo bar bee"[i], "foo-bar-bee"[i])
  {
  }

  lemma SpaceToDashLowered1()
    ensures forall i :: 2 <= i < 4 ==> LowersTo("foo bar bee"[i], "foo-bar-bee"[i])
  {
  }

  lemma SpaceToDashLowered2()
    ensures forall i :: 4 <= i < 6 ==> LowersTo("foo bar bee"[i], "foo-bar-bee"[i])
  {
  }

  lemma SpaceToDashLowered3()
    ensures forall i :: 6 <= i < 8 ==> LowersTo("foo bar bee"[i], "foo-bar-bee"[i])
  {
  }

  lemma SpaceToDashLowered4()
    ensures forall i :: 8 <= i < 10 ==> LowersTo("foo bar bee"[i], "foo-bar-bee"[i])
  {
  }

  lemma SpaceToDashLowered5()
    ensures forall i :: 10 <= i < 11 ==> LowersTo("foo bar bee"[i], "foo-bar-bee"[i])
  {
  }

  /** The Swedish alphabet is lower-cased by the Swedish preset. */
  lemma SwedishAlphabetDowncased()
    ensures Case(Swedish, "ABCDEFGHIJKLMNOPQRSTUVWXYZÅÄÖ") == "abcdefghijklmnopqrstuvwxyzåäö"
  {
    SwedishAlphabetDowncasedSlug();
    SwedishAlphabetDowncasedLowered0();
    SwedishAlphabetDowncasedLowered1();
    SwedishAlphabetDowncasedLowered2();
    SwedishAlphabetDowncasedLowered3();
    SwedishAlphabetDowncasedLowered4();
    SwedishAlphabetDowncasedLowered5();
    SwedishAlphabetDowncasedLowered6();
    SwedishAlphabetDowncasedLowered7();
    SwedishAlphabetDowncasedLowered8();
    SwedishAlphabetDowncasedLowered9();
    SwedishAlphabetDowncasedLowered10();
    SwedishAlphabetDowncasedLowered11();
    SwedishAlphabetDowncasedLowered12();
    SwedishAlphabetDowncasedLowered13();
    SwedishAlphabetDowncasedLowered14();
    CaseOfSpelling(Swedish, "ABCDEFGHIJKLMNOPQRSTUVWXYZÅÄÖ", "abcdefghijklmnopqrstuvwxyzåäö");
  }

  lemma SwedishAlphabetDowncasedSlug()
    ensures IsSlug(Swedish, "abcdefghijklmnopqrstuvwxyzåäö")
  {
    SwedishAlphabetDowncasedWord0();
    SwedishAlphabetDowncasedWord1();
    SwedishAlphabetDowncasedWord2();
    SwedishAlphabetDowncasedWord3();
    SwedishAlphabetDowncasedWord4();
  }

  lemma SwedishAlphabetDowncasedWord0()
    ensures forall i :: 0 <= i < 6 ==> WordChar(Swedish, "abcdefghijklmnopqrstuvwxyzåäö"[i])
  {
  }

  lemma SwedishAlphabetDowncasedWord1()
    ensures forall i :: 6 <= i < 12 ==> WordChar(Swedish, "abcdefghijklmnopqrstuvwxyzåäö"[i])
  {
  }

  lemma SwedishAlphabetDowncasedWord2()
    ensures forall i :: 12 <= i < 18 ==> WordChar(Swedish, "abcdefghijklmnopqrstuvwxyzåäö"[i])
  {
  }

  lemma SwedishAlphabetDowncasedWord3()
    ensures forall i :: 18 <= i < 24 ==> WordChar(Swedish, "abcdefghijklmnopqrstuvwxyzåäö"[i])
  {
  }

  lemma SwedishAlphabetDowncasedWord4()
    ensures forall i :: 24 <= i < 29 ==> WordChar(Swedish, "abcdefghijklmnopqrstuvwxyzåäö"[i])
  {
  }

  lemma SwedishAlphabetDowncasedLowered0()
    ensures forall i :: 0 <= i < 2 ==> LowersTo("ABCDEFGHIJKLMNOPQRSTUVWXYZÅÄÖ"[i], "abcdefghijklmnopqrstuvwxyzåäö"[i])
  {
  }

  lemma SwedishAlphabetDowncasedLowered1()
    ensures forall i :: 2 <= i < 4 ==> LowersTo("ABCDEFGHIJKLMNOPQRSTUVWXYZÅÄÖ"[i], "abcdefghijklmnopqrstuvwxyzåäö"[i])
  {
  }

  lemma SwedishAlphabetDowncasedLowered2()
    ensures forall i :: 4 <= i < 6 ==> LowersTo("ABCDEFGHIJKLMNOPQRSTUVWXYZÅÄÖ"[i], "abcdefghijklmnopqrstuvwxyzåäö"[i])
  {
  }

  lemma SwedishAlphabetDowncasedLowered3()
    ensures forall i :: 6 <= i < 8 ==> LowersTo("ABCDEFGHIJKLMNOPQRSTUVWXYZÅÄÖ"[i], "abcdefghijklmnopqrstuvwxyzåäö"[i])
  {
  }

  lemma SwedishAlphabetDowncasedLowered4()
    ensures forall i :: 8 <= i < 10 ==> LowersTo("ABCDEFGHIJKLMNOPQRSTUVWXYZÅÄÖ"[i], "abcdefghijklmnopqrstuvwxyzåäö"[i])
  {
  }

  lemma SwedishAlphabetDowncasedLowered5()
    ensures forall i :: 10 <= i < 12 ==> LowersTo("ABCDEFGHIJKLMNOPQRSTUVWXYZÅÄÖ"[i], "abcdefghijklmnopqrstuvwxyzåäö"[i])
  {
  }

  lemma SwedishAlphabetDowncasedLowered6()
    ensures forall i :: 12 <= i < 14 ==> LowersTo("ABCDEFGHIJKLMNOPQRSTUVWXYZÅÄÖ"[i], "abcdefghijklmnopqrstuvwxyzåäö"[i])
  {
  }

  lemma SwedishAlphabetDowncasedLowered7()
    ensures forall i :: 14 <= i < 16 ==> LowersTo("ABCDEFGHIJKLMNOPQRSTUVWXYZÅÄÖ"[i], "abcdefghijklmnopqrstuvwxyzåäö"[i])
  {
  }

  lemma SwedishAlphabetDowncasedLowered8()
    ensures forall i :: 16 <= i < 18 ==> LowersTo("ABCDEFGHIJKLMNOPQRSTUVWXYZÅÄÖ"[i], "abcdefghijklmnopqrstuvwxyzåäö"[i])
  {
  }

  lemma SwedishAlphabetDowncasedLowered9()
    ensures forall i :: 18 <= i < 20 ==> LowersTo("ABCDEFGHIJKLMNOPQRSTUVWXYZÅÄÖ"[i], "abcdefghijklmnopqrstuvwxyzåäö"[i])
  {
  }

  lemma SwedishAlphabetDowncasedLowered10()
    ensures forall i :: 20 <= i < 22 ==> LowersTo("ABCDEFGHIJKLMNOPQRSTUVWXYZÅÄÖ"[i], "abcdefghijklmnopqrstuvwxyzåäö"[i])
  {
  }

  lemma SwedishAlphabetDowncasedLowered11()
    ensures forall i :: 22 <= i < 24 ==> LowersTo("ABCDEFGHIJKLMNOPQRSTUVWXYZÅÄÖ"[i], "abcdefghijklmnopqrstuvwxyzåäö"[i])
  {
  }

  lemma SwedishAlphabetDowncasedLowered12()
    ensures forall i :: 24 <= i < 26 ==> LowersTo("ABCDEFGHIJKLMNOPQRSTUVWXYZÅÄÖ"[i], "abcdefghijklmnopqrstuvwxyzåäö"[i])
  {
  }

  lemma SwedishAlphabetDowncasedLowered13()
    ensures forall i :: 26 <= i < 28 ==> LowersTo("ABCDEFGHIJKLMNOPQRSTUVWXYZÅÄÖ"[i], "abcdefghijklmnopqrstuvwxyzåäö"[i])
  {
  }

  lemma SwedishAlphabetDowncasedLowered14()
    ensures forall i :: 28 <= i < 29 ==> LowersTo("ABCDEFGHIJKLMNOPQRSTUVWXYZÅÄÖ"[i], "abcdefghijklmnopqrstuvwxyzåäö"[i])
  {
  }

  /** The default configuration lower-cases the alphabet and turns å, ä and ö into a, a and o. */
  lemma SwedishAlphabetDefault()
    ensures Case(Default, "ABCDEFGHIJKLMNOPQRSTUVWXYZÅÄÖ") == "abcdefghijklmnopqrstuvwxyzaao"
  {
    SwedishAlphabetDefaultSlug();
    SwedishAlphabetDefaultSpelled0();
    SwedishAlphabetDefaultSpelled1();
    SwedishAlphabetDefaultSpelled2();
    SwedishAlphabetDefaultSpelled3();
    SwedishAlphabetDefaultSpelled4();
    SwedishAlphabetDefaultSpelled5();
    SwedishAlphabetDefaultSpelled6();
    SwedishAlphabetDefaultSpelled7();
    SwedishAlphabetDefaultSpelled8();
    SwedishAlphabetDefaultSpelled9();
    SwedishAlphabetDefaultSpelled10();
    SwedishAlphabetDefaultSpelled11();
    SwedishAlphabetDefaultSpelled12();
    SwedishAlphabetDefaultSpelled13();
    SwedishAlphabetDefaultSpelled14();
    CaseLetterByLetter(Default, "ABCDEFGHIJKLMNOPQRSTUVWXYZÅÄÖ", "abcdefghijklmnopqrstuvwxyzaao");
  }

  lemma SwedishAlphabetDefaultSlug()
    ensures IsSlug(Default, "abcdefghijklmnopqrstuvwxyzaao")
  {
    SwedishAlphabetDefaultWord0();
    SwedishAlphabetDefaultWord1();
    SwedishAlphabetDefaultWord2();
    SwedishAlphabetDefaultWord3();
    SwedishAlphabetDefaultWord4();
  }

  lemma SwedishAlphabetDefaultWord0()
    ensures forall i :: 0 <= i < 6 ==> WordChar(Default, "abcdefghijklmnopqrstuvwxyzaao"[i])
  {
  }

  lemma SwedishAlphabetDefaultWord1()
    ensures forall i :: 6 <= i < 12 ==> WordChar(Default, "abcdefghijklmnopqrstuvwxyzaao"[i])
  {
  }

  lemma SwedishAlphabetDefaultWord2()
    ensures forall i :: 12 <= i < 18 ==> WordChar(Default, "abcdefghijklmnopqrstuvwxyzaao"[i])
  {
  }

  lemma SwedishAlphabetDefaultWord3()
    ensures forall i :: 18 <= i < 24 ==> WordChar(Default, "abcdefghijklmnopqrstuvwxyzaao"[i])
  {
  }

  lemma SwedishAlphabetDefaultWord4()
    ensures forall i :: 24 <= i < 29 ==> WordChar(Default, "abcdefghijklmnopqrstuvwxyzaao"[i])
  {
  }

  lemma SwedishAlphabetDefaultSpelled0()
    ensures forall i :: 0 <= i < 2 ==> Spells(Default, "ABCDEFGHIJKLMNOPQRSTUVWXYZÅÄÖ"[i], "abcdefghijklmnopqrstuvwxyzaao"[i])
  {
  }

  lemma SwedishAlphabetDefaultSpelled1()
    ensures forall i :: 2 <= i < 4 ==> Spells(Default, "ABCDEFGHIJKLMNOPQRSTUVWXYZÅÄÖ"[i], "abcdefghijklmnopqrstuvwxyzaao"[i])
  {
  }

  lemma SwedishAlphabetDefaultSpelled2()
    ensures forall i :: 4 <= i < 6 ==> Spells(Default, "ABCDEFGHIJKLMNOPQRSTUVWXYZÅÄÖ"[i], "abcdefghijklmnopqrstuvwxyzaao"[i])
  {
  }

  lemma SwedishAlphabetDefaultSpelled3()
    ensures forall i :: 6 <= i < 8 ==> Spells(Default, "ABCDEFGHIJKLMNOPQRSTUVWXYZÅÄÖ"[i], "abcdefghijklmnopqrstuvwxyzaao"[i])
  {
  }

  lemma SwedishAlphabetDefaultSpelled4()
    ensures forall i :: 8 <= i < 10 ==> Spells(Default, "ABCDEFGHIJKLMNOPQRSTUVWXYZÅÄÖ"[i], "abcdefghijklmnopqrstuvwxyzaao"[i])
  {
  }

  lemma SwedishAlphabetDefaultSpelled5()
    ensures forall i :: 10 <= i < 12 ==> Spells(Default, "ABCDEFGHIJKLMNOPQRSTUVWXYZÅÄÖ"[i], "abcdefghijklmnopqrstuvwxyzaao"[i])
  {
  }

  lemma SwedishAlphabetDefaultSpelled6()
    ensures forall i :: 12 <= i < 14 ==> Spells(Default, "ABCDEFGHIJKLMNOPQRSTUVWXYZÅÄÖ"[i], "abcdefghijklmnopqrstuvwxyzaao"[i])
  {
  }

  lemma SwedishAlphabetDefaultSpelled7()
    ensures forall i :: 14 <= i < 16 ==> Spells(Default, "ABCDEFGHIJKLMNOPQRSTUVWXYZÅÄÖ"[i], "abcdefghijklmnopqrstuvwxyzaao"[i])
  {
  }

  lemma SwedishAlphabetDefaultSpelled8()
    ensures forall i :: 16 <= i < 18 ==> Spells(Default, "ABCDEFGHIJKLMNOPQRSTUVWXYZÅÄÖ"[i], "abcdefghijklmnopqrstuvwxyzaao"[i])
  {
  }

  lemma SwedishAlphabetDefaultSpelled9()
    ensures forall i :: 18 <= i < 20 ==> Spells(Default, "ABCDEFGHIJKLMNOPQRSTUVWXYZÅÄÖ"[i], "abcdefghijklmnopqrstuvwxyzaao"[i])
  {
  }

  lemma SwedishAlphabetDefaultSpelled10()
    ensures forall i :: 20 <= i < 22 ==> Spells(Default, "ABCDEFGHIJKLMNOPQRSTUVWXYZÅÄÖ"[i], "abcdefghijklmnopqrstuvwxyzaao"[i])
  {
  }

  lemma SwedishAlphabetDefaultSpelled11()
    ensures forall i :: 22 <= i < 24 ==> Spells(Default, "ABCDEFGHIJKLMNOPQRSTUVWXYZÅÄÖ"[i], "abcdefghijklmnopqrstuvwxyzaao"[i])
  {
  }

  lemma SwedishAlphabetDefaultSpelled12()
    ensures forall i :: 24 <= i < 26 ==> Spells(Default, "ABCDEFGHIJKLMNOPQRSTUVWXYZÅÄÖ"[i], "abcdefghijklmnopqrstuvwxyzaao"[i])
  {
  }

  lemma SwedishAlphabetDefaultSpelled13()
    ensures forall i :: 26 <= i < 28 ==> Spells(Default, "ABCDEFGHIJKLMNOPQRSTUVWXYZÅÄÖ"[i], "abcdefghijklmnopqrstuvwxyzaao"[i])
  {
  }

  lemma SwedishAlphabetDefaultSpelled14()
    ensures forall i :: 28 <= i < 29 ==> Spells(Default, "ABCDEFGHIJKLMNOPQRSTUVWXYZÅÄÖ"[i], "abcdefghijklmnopqrstuvwxyzaao"[i])
  {
  }

  /** Letters with diacritics become plain letters. */
  lemma DiacriticsConverted()
    ensures Case(Default, "Dürén Ibrahimović") == "duren-ibrahimovic"
  {
    DiacriticsConvertedSlug();
    DiacriticsConvertedSpelled0();
    DiacriticsConvertedSpelled1();
    DiacriticsConvertedSpelled2();
    DiacriticsConvertedSpelled3();
    DiacriticsConvertedSpelled4();
    DiacriticsConvertedSpelled5();
    DiacriticsConvertedSpelled6();
    DiacriticsConvertedSpelled7();
    DiacriticsConvertedSpelled8();
    CaseLetterByLetter(Default, "Dürén Ibrahimović", "duren-ibrahimovic");
  }

  lemma DiacriticsConvertedSlug()
    ensures IsSlug(Default, "duren-ibrahimovic")
  {
  }

  lemma DiacriticsConvertedSpelled0()
    ensures forall i :: 0 <= i < 2 ==> Spells(Default, "Dürén Ibrahimović"[i], "duren-ibrahimovic"[i])
  {
  }

  lemma DiacriticsConvertedSpelled1()
    ensures forall i :: 2 <= i < 4 ==> Spells(Default, "Dürén Ibrahimović"[i], "duren-ibrahimovic"[i])
  {
  }

  lemma DiacriticsConvertedSpelled2()
    ensures forall i :: 4 <= i < 6 ==> Spells(Default, "Dürén Ibrahimović"[i], "duren-ibrahimovic"[i])
  {
  }

  lemma DiacriticsConvertedSpelled3()
    ensures forall i :: 6 <= i < 8 ==> Spells(Default, "Dürén Ibrahimović"[i], "duren-ibrahimovic"[i])
  {
  }

  lemma DiacriticsConvertedSpelled4()
    ensures forall i :: 8 <= i < 10 ==> Spells(Default, "Dürén Ibrahimović"[i], "duren-ibrahimovic"[i])
  {
  }

  lemma DiacriticsConvertedSpelled5()
    ensures forall i :: 10 <= i < 12 ==> Spells(Default, "Dürén Ibrahimović"[i], "duren-ibrahimovic"[i])
  {
  }

  lemma DiacriticsConvertedSpelled6()
    ensures forall i :: 12 <= i < 14 ==> Spells(Default, "Dürén Ibrahimović"[i], "duren-ibrahimovic"[i])
  {
  }

  lemma DiacriticsConvertedSpelled7()
    ensures forall i :: 14 <= i < 16 ==> Spells(Default, "Dürén Ibrahimović"[i], "duren-ibrahimovic"[i])
  {
  }

  lemma DiacriticsConvertedSpelled8()
    ensures forall i :: 16 <= i < 17 ==> Spells(Default, "Dürén Ibrahimović"[i], "duren-ibrahimovic"[i])
  {
    assert ToLower('ć') == 'ć';
  }

  /** The Swedish preset keeps å, ä and ö. */
  lemma SwedishLettersKept()
    ensures Case(Swedish, "ÅÄÖåäö") == "åäöåäö"
  {
    SwedishLettersKeptSlug();
    SwedishLettersKeptLowered0();
    SwedishLettersKeptLowered1();
    SwedishLettersKeptLowered2();
    CaseOfSpelling(Swedish, "ÅÄÖåäö", "åäöåäö");
  }

  lemma SwedishLettersKeptSlug()
    ensures IsSlug(Swedish, "åäöåäö")
  {
  }

  lemma SwedishLettersKeptLowered0()
    ensures forall i :: 0 <= i < 2 ==> LowersTo("ÅÄÖåäö"[i], "åäöåäö"[i])
  {
  }

  lemma SwedishLettersKeptLowered1()
    ensures forall i :: 2 <= i < 4 ==> LowersTo("ÅÄÖåäö"[i], "åäöåäö"[i])
  {
  }

  lemma SwedishLettersKeptLowered2()
    ensures forall i :: 4 <= i < 6 ==> LowersTo("ÅÄÖåäö"[i], "åäöåäö"[i])
  {
  }

  /** The default configuration turns å, ä and ö into a, a and o. */
  lemma SwedishLettersDefault()
    ensures Case(Default, "ÅÄÖåäö") == "aaoaao"
  {
    SwedishLettersDefaultSlug();
    SwedishLettersDefaultSpelled0();
    SwedishLettersDefaultSpelled1();
    SwedishLettersDefaultSpelled2();
    CaseLetterByLetter(Default, "ÅÄÖåäö", "aaoaao");
  }

  lemma SwedishLettersDefaultSlug()
    ensures IsSlug(Default, "aaoaao")
  {
  }

  lemma SwedishLettersDefaultSpelled0()
    ensures forall i :: 0 <= i < 2 ==> Spells(Default, "ÅÄÖåäö"[i], "aaoaao"[i])
  {
  }

  lemma SwedishLettersDefaultSpelled1()
    ensures forall i :: 2 <= i < 4 ==> Spells(Default, "ÅÄÖåäö"[i], "aaoaao"[i])
  {
  }

  lemma SwedishLettersDefaultSpelled2()
    ensures forall i :: 4 <= i < 6 ==> Spells(Default, "ÅÄÖåäö"[i], "aaoaao"[i])
  {
  }

  /** Grave, acute, diaeresis and circumflex on e. */
  lemma AccentsE()
    ensures Case(Default, "ÈÉËÊèéëê") == "eeeeeeee"
  {
    AccentsESlug();
    AccentsESpelled0();
    AccentsESpelled1();
    AccentsESpelled2();
    AccentsESpelled3();
    CaseLetterByLetter(Default, "ÈÉËÊèéëê", "eeeeeeee");
  }

  lemma AccentsESlug()
    ensures IsSlug(Default, "eeeeeeee")
  {
  }

  lemma AccentsESpelled0()
    ensures forall i :: 0 <= i < 2 ==> Spells(Default, "ÈÉËÊèéëê"[i], "eeeeeeee"[i])
  {
  }

  lemma AccentsESpelled1()
    ensures forall i :: 2 <= i < 4 ==> Spells(Default, "ÈÉËÊèéëê"[i], "eeeeeeee"[i])
  {
  }

  lemma AccentsESpelled2()
    ensures forall i :: 4 <= i < 6 ==> Spells(Default, "ÈÉËÊèéëê"[i], "eeeeeeee"[i])
  {
  }

  lemma AccentsESpelled3()
    ensures forall i :: 6 <= i < 8 ==> Spells(Default, "ÈÉËÊèéëê"[i], "eeeeeeee"[i])
  {
  }

  /** Grave, acute and circumflex on a. */
  lemma AccentsA()
    ensures Case(Default, "ÀÁÂàáâ") == "aaaaaa"
  {
    AccentsASlug();
    AccentsASpelled0();
    AccentsASpelled1();
    AccentsASpelled2();
    CaseLetterByLetter(Default, "ÀÁÂàáâ", "aaaaaa");
  }

  lemma AccentsASlug()
    ensures IsSlug(Default, "aaaaaa")
  {
  }

  lemma AccentsASpelled0()
    ensures forall i :: 0 <= i < 2 ==> Spells(Default, "ÀÁÂàáâ"[i], "aaaaaa"[i])
  {
  }

  lemma AccentsASpelled1()
    ensures forall i :: 2 <= i < 4 ==> Spells(Default, "ÀÁÂàáâ"[i], "aaaaaa"[i])
  {
  }

  lemma AccentsASpelled2()
    ensures forall i :: 4 <= i < 6 ==> Spells(Default, "ÀÁÂàáâ"[i], "aaaaaa"[i])
  {
  }

  /** Diaeresis on u. */
  lemma AccentsU()
    ensures Case(Default, "Üü") == "uu"
  {
    AccentsUSlug();
    AccentsUSpelled0();
    CaseLetterByLetter(Default, "Üü", "uu");
  }

  lemma AccentsUSlug()
    ensures IsSlug(Default, "uu")
  {
  }

  lemma AccentsUSpelled0()
    ensures forall i :: 0 <= i < 2 ==> Spells(Default, "Üü"[i], "uu"[i])
  {
  }

  /** Caron, acute and cedilla on c. */
  lemma AccentsC()
    ensures Case(Default, "ČĆÇčćç") == "cccccc"
  {
    AccentsCSlug();
    AccentsCSpelled0();
    AccentsCSpelled1();
    AccentsCSpelled2();
    CaseLetterByLetter(Default, "ČĆÇčćç", "cccccc");
  }

  lemma AccentsCSlug()
    ensures IsSlug(Default, "cccccc")
  {
  }

  lemma AccentsCSpelled0()
    ensures forall i :: 0 <= i < 2 ==> Spells(Default, "ČĆÇčćç"[i], "cccccc"[i])
  {
    assert ToLower('Č') == 'č';
    assert ToLower('Ć') == 'ć';
  }

  lemma AccentsCSpelled1()
    ensures forall i :: 2 <= i < 4 ==> Spells(Default, "ČĆÇčćç"[i], "cccccc"[i])
  {
    assert ToLower('č') == 'č';
  }

  lemma AccentsCSpelled2()
    ensures forall i :: 4 <= i < 6 ==> Spells(Default, "ČĆÇčćç"[i], "cccccc"[i])
  {
    assert ToLower('ć') == 'ć';
  }

  /** Tilde on n. */
  lemma AccentsN()
    ensures Case(Default, "Ññ") == "nn"
  {
    AccentsNSlug();
    AccentsNSpelled0();
    CaseLetterByLetter(Default, "Ññ", "nn");
  }

  lemma AccentsNSlug()
    ensures IsSlug(Default, "nn")
  {
  }

  lemma AccentsNSpelled0()
    ensures forall i :: 0 <= i < 2 ==> Spells(Default, "Ññ"[i], "nn"[i])
  {
  }

  /** Diaeresis on i. */
  lemma AccentsI()
    ensures Case(Default, "Ïï") == "ii"
  {
    AccentsISlug();
    AccentsISpelled0();
    CaseLetterByLetter(Default, "Ïï", "ii");
  }

  lemma AccentsISlug()
    ensures IsSlug(Default, "ii")
  {
  }

  lemma AccentsISpelled0()
    ensures forall i :: 0 <= i < 2 ==> Spells(Default, "Ïï"[i], "ii"[i])
  {
  }

  /** The Swedish preset maps æ to ä and ø to ö. */
  lemma LigatureAndSlashedO()
    ensures Case(Swedish, "ÆØæø") == "äöäö"
  {
    LigatureAndSlashedOSlug();
    LigatureAndSlashedOSpelled0();
    LigatureAndSlashedOSpelled1();
    CaseLetterByLetter(Swedish, "ÆØæø", "äöäö");
  }

  lemma LigatureAndSlashedOSlug()
    ensures IsSlug(Swedish, "äöäö")
  {
  }

  lemma LigatureAndSlashedOSpelled0()
    ensures forall i :: 0 <= i < 2 ==> Spells(Swedish, "ÆØæø"[i], "äöäö"[i])
  {
  }

  lemma LigatureAndSlashedOSpelled1()
    ensures forall i :: 2 <= i < 4 ==> Spells(Swedish, "ÆØæø"[i], "äöäö"[i])
  {
  }

  /** The default configuration maps æ to a and ø to o. */
  lemma LigatureAndSlashedODefault()
    ensures Case(Default, "ÆØæø") == "aoao"
  {
    LigatureAndSlashedODefaultSlug();
    LigatureAndSlashedODefaultSpelled0();
    LigatureAndSlashedODefaultSpelled1();
    CaseLetterByLetter(Default, "ÆØæø", "aoao");
  }

  lemma LigatureAndSlashedODefaultSlug()
    ensures IsSlug(Default, "aoao")
  {
  }

  lemma LigatureAndSlashedODefaultSpelled0()
    ensures forall i :: 0 <= i < 2 ==> Spells(Default, "ÆØæø"[i], "aoao"[i])
  {
  }

  lemma LigatureAndSlashedODefaultSpelled1()
    ensures forall i :: 2 <= i < 4 ==> Spells(Default, "ÆØæø"[i], "aoao"[i])
  {
  }

  /** The text of `UnderscoreToDash` without its apostrophe. */
  lemma LetsDance()
    ensures Case(Default, "Lets_Dance") == "lets-dance"
  {
    LetsDanceSlug();
    LetsDanceLowered0();
    LetsDanceLowered1();
    LetsDanceLowered2();
    LetsDanceLowered3();
    LetsDanceLowered4();
    CaseOfSpelling(Default, "Lets_Dance", "lets-dance");
  }

  lemma LetsDanceSlug()
    ensures IsSlug(Default, "lets-dance")
  {
  }

  lemma LetsDanceLowered0()
    ensures forall i :: 0 <= i < 2 ==> LowersTo("Lets_Dance"[i], "lets-dance"[i])
  {
  }

  lemma LetsDanceLowered1()
    ensures forall i :: 2 <= i < 4 ==> LowersTo("Lets_Dance"[i], "lets-dance"[i])
  {
  }

  lemma LetsDanceLowered2()
    ensures forall i :: 4 <= i < 6 ==> LowersTo("Lets_Dance"[i], "lets-dance"[i])
  {
  }

  lemma LetsDanceLowered3()
    ensures forall i :: 6 <= i < 8 ==> LowersTo("Lets_Dance"[i], "lets-dance"[i])
  {
  }

  lemma LetsDanceLowered4()
    ensures forall i :: 8 <= i < 10 ==> LowersTo("Lets_Dance"[i], "lets-dance"[i])
  {
  }

  /** One capitalised word. */
  lemma Lets()
    ensures Case(Default, "Lets") == "lets"
  {
    LetsSlug();
    LetsLowered0();
    LetsLowered1();
    CaseOfSpelling(Default, "Lets", "lets");
  }

  lemma LetsSlug()
    ensures IsSlug(Default, "lets")
  {
  }

  lemma LetsLowered0()
    ensures forall i :: 0 <= i < 2 ==> LowersTo("Lets"[i], "lets"[i])
  {
  }

  lemma LetsLowered1()
    ensures forall i :: 2 <= i < 4 ==> LowersTo("Lets"[i], "lets"[i])
  {
  }

  /** One capitalised Swedish word. */
  lemma Fangarna()
    ensures Case(Swedish, "Fångarna") == "fångarna"
  {
    FangarnaSlug();
    FangarnaLowered0();
    FangarnaLowered1();
    FangarnaLowered2();
    FangarnaLowered3();
    CaseOfSpelling(Swedish, "Fångarna", "fångarna");
  }

  lemma FangarnaSlug()
    ensures IsSlug(Swedish, "fångarna")
  {
  }

  lemma FangarnaLowered0()
    ensures forall i :: 0 <= i < 2 ==> LowersTo("Fångarna"[i], "fångarna"[i])
  {
  }

  lemma FangarnaLowered1()
    ensures forall i :: 2 <= i < 4 ==> LowersTo("Fångarna"[i], "fångarna"[i])
  {
  }

  lemma FangarnaLowered2()
    ensures forall i :: 4 <= i < 6 ==> LowersTo("Fångarna"[i], "fångarna"[i])
  {
  }

  lemma FangarnaLowered3()
    ensures forall i :: 6 <= i < 8 ==> LowersTo("Fångarna"[i], "fångarna"[i])
  {
  }

  /** Characters outside the alphabet are dropped and the trailing dash is
      trimmed. */
  lemma OtherCharsIgnored()
    ensures Case(Default, "kale8^79\'0-") == "kale8790"
  {
    CaretDeleted();
    ApostropheDeleted();
    TrailingSeparatorDropped();
  }

  lemma CaretDeleted()
    ensures Case(Default, "kale8^79\'0-") == Case(Default, "kale879\'0-")
  {
    assert "kale8^79\'0-" == "kale8" + ['^'] + "79\'0-";
    assert "kale8" + "79\'0-" == "kale879\'0-";
    DeleteInWord(Default, "kale8", '^', "79\'0-");
  }

  lemma ApostropheDeleted()
    ensures Case(Default, "kale879\'0-") == Case(Default, "kale8790-")
  {
    assert "kale879\'0-" == "kale879" + ['\''] + "0-";
    assert "kale879" + "0-" == "kale8790-";
    DeleteInWord(Default, "kale879", '\'', "0-");
  }

  lemma TrailingSeparatorDropped()
    ensures Case(Default, "kale8790-") == "kale8790"
  {
    KaleSurrounded();
    Kale8790();
  }

  lemma KaleSurrounded()
    ensures Case(Default, "kale8790-") == Case(Default, "kale8790")
  {
    KalePadding();
    SurroundCase(Default, "", "kale8790", "-");
  }

  lemma KalePadding()
    ensures "kale8790-" == "" + "kale8790" + "-"
  {
  }

  lemma Kale8790()
    ensures WordsAndSeparators(Default, "kale8790")
    ensures Case(Default, "kale8790") == "kale8790"
  {
    assert IsSlug(Default, "kale8790");
    LowerOfWords(Default, "kale8790");
    FixedPoint(Default, "kale8790");
  }

  /** An underscore becomes a dash and the apostrophe is dropped. */
  lemma UnderscoreToDash()
    ensures Case(Default, "Let\'s_Dance") == "lets-dance"
  {
    LetsDanceApostrophe();
    LetsDance();
  }

  lemma LetsDanceApostrophe()
    ensures Case(Default, "Let\'s_Dance") == Case(Default, "Lets_Dance")
  {
    assert "Let\'s_Dance" == "Let" + ['\''] + "s_Dance";
    assert "Let" + "s_Dance" == "Lets_Dance";
    DeleteInWord(Default, "Let", '\'', "s_Dance");
  }

  /** A run of separators becomes one dash. */
  lemma DoubleDashRemoved()
    ensures Case(Default, "Let\'s -- da-da-dance") == "lets-da-da-dance"
  {
    DaDaDanceApostrophe();
    DaDaDanceJoined();
  }

  lemma DaDaDanceApostrophe()
    ensures Case(Default, "Let\'s -- da-da-dance") == Case(Default, "Lets -- da-da-dance")
  {
    assert "Let\'s -- da-da-dance" == "Let" + ['\''] + "s -- da-da-dance";
    assert "Let" + "s -- da-da-dance" == "Lets -- da-da-dance";
    DeleteInWord(Default, "Let", '\'', "s -- da-da-dance");
  }

  lemma DaDaDanceJoined()
    ensures Case(Default, "Lets -- da-da-dance") == "lets-da-da-dance"
  {
    DaDaDanceSplit();
    Lets();
    DaDaDance();
    DaDaDanceText();
  }

  lemma DaDaDanceText()
    ensures "Lets -- da-da-dance" == "Lets" + " -- " + "da-da-dance"
    ensures "lets" + "-" + "da-da-dance" == "lets-da-da-dance"
  {
  }

  lemma DaDaDanceSplit()
    ensures Case(Default, "Lets" + " -- " + "da-da-dance")
            == Case(Default, "Lets") + "-" + Case(Default, "da-da-dance")
  {
    DaDaDanceParts();
    JoinCase(Default, "Lets", " -- ", "da-da-dance");
  }

  lemma DaDaDanceParts()
    ensures WordsAndSeparators(Default, "Lets") && WordsAndSeparators(Default, "da-da-dance")
    ensures !IsSeparator(ToLower("Lets"[3])) && !IsSeparator(ToLower("da-da-dance"[0]))
    ensures forall i :: 0 <= i < |" -- "| ==> IsSeparator(" -- "[i])
  {
  }

  lemma DaDaDance()
    ensures Case(Default, "da-da-dance") == "da-da-dance"
  {
    DaDaDanceSlug();
    FixedPoint(Default, "da-da-dance");
  }

  lemma DaDaDanceSlug()
    ensures IsSlug(Default, "da-da-dance")
  {
  }

  /** Surrounding and repeated spaces are removed. */
  lemma SurroundingSpaceRemoved()
    ensures Case(Swedish, " Fångarna     på  fortet   ") == "fångarna-på-fortet"
  {
    FangarnaSurrounded();
    FangarnaJoined();
  }

  lemma FangarnaSurrounded()
    ensures Case(Swedish, " Fångarna     på  fortet   ") == Case(Swedish, "Fångarna     på  fortet")
  {
    FangarnaPadding();
    SurroundCase(Swedish, " ", "Fångarna     på  fortet", "   ");
  }

  lemma FangarnaPadding()
    ensures " Fångarna     på  fortet   " == " " + "Fångarna     på  fortet" + "   "
  {
  }

  lemma FangarnaJoined()
    ensures Case(Swedish, "Fångarna     på  fortet") == "fångarna-på-fortet"
  {
    FangarnaSplit();
    Fangarna();
    PaFortetJoined();
    FangarnaText();
  }

  lemma FangarnaText()
    ensures "Fångarna     på  fortet" == "Fångarna" + "     " + "på  fortet"
    ensures "fångarna" + "-" + "på-fortet" == "fångarna-på-fortet"
    ensures "på  fortet" == "på" + "  " + "fortet"
    ensures "på" + "-" + "fortet" == "på-fortet"
  {
  }

  lemma FangarnaSplit()
    ensures Case(Swedish, "Fångarna" + "     " + "på  fortet")
            == Case(Swedish, "Fångarna") + "-" + Case(Swedish, "på  fortet")
  {
    FangarnaWords();
    FangarnaEnds();
    JoinCase(Swedish, "Fångarna", "     ", "på  fortet");
  }

  lemma FangarnaEnds()
    ensures !IsSeparator(ToLower("Fångarna"[7])) && !IsSeparator(ToLower("på  fortet"[0]))
    ensures forall i :: 0 <= i < |"     "| ==> IsSeparator("     "[i])
    ensures !IsSeparator(ToLower("på"[1])) && !IsSeparator(ToLower("fortet"[0]))
    ensures forall i :: 0 <= i < |"  "| ==> IsSeparator("  "[i])
  {
  }

  lemma PaFortetJoined()
    ensures Case(Swedish, "på  fortet") == "på-fortet"
  {
    PaFortetSplit();
    PaFortet();
    FangarnaText();
  }

  lemma PaFortetSplit()
    ensures Case(Swedish, "på" + "  " + "fortet") == Case(Swedish, "på") + "-" + Case(Swedish, "fortet")
  {
    FangarnaWords();
    FangarnaEnds();
    JoinCase(Swedish, "på", "  ", "fortet");
  }

  lemma FangarnaWords()
    ensures WordsAndSeparators(Swedish, "Fångarna")
    ensures WordsAndSeparators(Swedish, "på") && WordsAndSeparators(Swedish, "fortet")
    ensures WordsAndSeparators(Swedish, "på  fortet")
    ensures WordsAndSeparators(Swedish, "Fångarna     på  fortet")
  {
    FangarnaWordsLeft();
    FangarnaWordsRight();
    FangarnaText();
    ThreeParts(Swedish, "Fångarna", "     ", "på  fortet");
  }

  lemma FangarnaWordsLeft()
    ensures WordsAndSeparators(Swedish, "Fångarna")
    ensures WordsAndSeparators(Swedish, "     ")
  {
  }

  lemma FangarnaWordsRight()
    ensures WordsAndSeparators(Swedish, "på") && WordsAndSeparators(Swedish, "fortet")
    ensures WordsAndSeparators(Swedish, "på  fortet")
  {
  }

  lemma PaFortet()
    ensures Case(Swedish, "på") == "på" && Case(Swedish, "fortet") == "fortet"
  {
    assert IsSlug(Swedish, "på");
    assert IsSlug(Swedish, "fortet");
    FixedPoint(Swedish, "på");
    FixedPoint(Swedish, "fortet");
  }

  /** Stripping comes after spaces become dashes, so a space before a
      character outside the alphabet is left as a trailing dash. */
  lemma TrailingDashKept()
    ensures Case(Default, "a ^") == "a-"
  {
    TrailingDashPrepared();
    TrailingDashSquished();
    TrailingDashTransliterated();
    TrailingDashStripped();
  }

  lemma TrailingDashPrepared()
    ensures Prepare(Default, "a ^") == "a ^"
  {
    assert Lower("a ^") == "a ^";
    assert DashToSpace(Separators, "a ^") == "a ^";
    TrimBetween(UnicodeSpace, [], "a ^", []);
    assert [] + "a ^" + [] == "a ^";
  }

  lemma TrailingDashSquished()
    ensures Squish(WhitespaceRuns, "a ^") == "a ^"
  {
    CollapseFixed(RegexSpace, "a ^");
  }

  lemma TrailingDashTransliterated()
    ensures Transliterate(Plain, "a ^") == "a-^"
  {
    assert Replace(Plain, ' ') == "-";
    TransliterateSingles(Plain, "a ^", "a-^");
  }

  lemma TrailingDashStripped()
    ensures Strip(Default, "a-^") == "a-"
  {
    assert Delete(StripNonAscii, "a-^") == "a-";
    CollapseFixed(Dash, "a-");
  }

  /** A trailing dash of the input is trimmed. */
  lemma TrailingDashTrimmed()
    ensures Case(Default, "a-") == "a"
  {
    DashSurrounded();
    LetterA();
  }

  lemma DashSurrounded()
    ensures Case(Default, "a-") == Case(Default, "a")
  {
    DashPadding();
    SurroundCase(Default, "", "a", "-");
  }

  lemma DashPadding()
    ensures "a-" == "" + "a" + "-"
  {
  }

  lemma LetterA()
    ensures Case(Default, "a") == "a"
  {
    LowerOfWords(Default, "a");
    FixedPoint(Default, "a");
  }

  /** Deletion runs before dashes collapse, so the dashes on both sides of
      a deleted character become one. */
  lemma DeletedBetweenSpaces()
    ensures Case(Default, "a ^ b") == "a-b"
  {
    BetweenSpacesPrepared();
    BetweenSpacesSquished();
    BetweenSpacesTransliterated();
    StripDeletedJoin(Default);
  }

  lemma BetweenSpacesPrepared()
    ensures Prepare(Default, "a ^ b") == "a ^ b"
  {
    assert Lower("a ^ b") == "a ^ b";
    assert DashToSpace(Separators, "a ^ b") == "a ^ b";
    TrimBetween(UnicodeSpace, [], "a ^ b", []);
    assert [] + "a ^ b" + [] == "a ^ b";
  }

  lemma BetweenSpacesSquished()
    ensures Squish(WhitespaceRuns, "a ^ b") == "a ^ b"
  {
    CollapseFixed(RegexSpace, "a ^ b");
  }

  lemma BetweenSpacesTransliterated()
    ensures Transliterate(Plain, "a ^ b") == "a-^-b"
  {
    assert Replace(Plain, ' ') == "-";
    TransliterateSingles(Plain, "a ^ b", "a-^-b");
  }

  /** Deleted characters at the start leave the dashes between them as one
      leading dash, which nothing trims. */
  lemma DeletedAtStart()
    ensures Case(Default, "^ ^ a") == "-a"
  {
    AtStartPrepared();
    AtStartSquished();
    AtStartTransliterated();
    StripDeletedLead(Default);
  }

  lemma AtStartPrepared()
    ensures Prepare(Default, "^ ^ a") == "^ ^ a"
  {
    assert Lower("^ ^ a") == "^ ^ a";
    assert DashToSpace(Separators, "^ ^ a") == "^ ^ a";
    TrimBetween(UnicodeSpace, [], "^ ^ a", []);
    assert [] + "^ ^ a" + [] == "^ ^ a";
  }

  lemma AtStartSquished()
    ensures Squish(WhitespaceRuns, "^ ^ a") == "^ ^ a"
  {
    CollapseFixed(RegexSpace, "^ ^ a");
  }

  lemma AtStartTransliterated()
    ensures Transliterate(Plain, "^ ^ a") == "^-^-a"
  {
    assert Replace(Plain, ' ') == "-";
    TransliterateSingles(Plain, "^ ^ a", "^-^-a");
  }

  /** `Case` is not idempotent: "a ^" gives "a-", which gives "a". */
  lemma NotIdempotent()
    ensures Case(Default, Case(Default, "a ^")) != Case(Default, "a ^")
  {
    TrailingDashKept();
    TrailingDashTrimmed();
  }

  /** The empty candidate is possible under the Swedish preset only. */
  lemma EmptyCandidate()
    ensures Possible(Swedish, "")
    ensures !Possible(Default, "")
  {
  }

  /** "räksmörgås" is possible under the Swedish preset only. */
  lemma SwedishCandidate()
    ensures Possible(Swedish, "räksmörgås")
    ensures !Possible(Default, "räksmörgås")
  {
    assert !ValidChar(AsciiSlug, "räksmörgås"[1]);
    SwedishCandidateValid();
  }

  lemma SwedishCandidateValid()
    ensures forall i :: 0 <= i < |"räksmörgås"| ==> ValidChar(SwedishSlug, "räksmörgås"[i])
    ensures !HasAdjacent(Dash, "räksmörgås")
  {
  }

  /** Diacritics other than å, ä, ö, spaces, slashes, newlines and capitals
      are rejected by both presets. */
  lemma RejectedCandidates()
    ensures !Possible(Default, "dürén-ibrahimović") && !Possible(Swedish, "dürén-ibrahimović")
    ensures !Possible(Default, "foo bar") && !Possible(Swedish, "foo bar")
    ensures !Possible(Default, "foo/bar") && !Possible(Swedish, "foo/bar")
    ensures !Possible(Default, "foo\n") && !Possible(Swedish, "foo\n")
    ensures !Possible(Default, "FOO") && !Possible(Swedish, "FOO")
  {
    assert !ValidChar(SwedishSlug, "dürén-ibrahimović"[1]);
    assert !ValidChar(SwedishSlug, "foo bar"[3]);
    assert !ValidChar(SwedishSlug, "foo/bar"[3]);
    assert !ValidChar(SwedishSlug, "foo\n"[3]);
    assert !ValidChar(SwedishSlug, "FOO"[0]);
  }

  /** A double dash is rejected even though each character is valid. */
  lemma DoubleDashRejected()
    ensures !Possible(Default, "a--b") && !Possible(Swedish, "a--b")
    ensures Possible(Default, "a-b") && Possible(Swedish, "a-b")
  {
    assert "a--b"[1] == '-' && "a--b"[2] == '-';
  }
}

=== FILE: wrappers.dfy ===
/** The optional value used for Go's nil-able option arguments and for
    the "no table entry" answer of a transliteration lookup. */
module Wrappers {

  datatype Option<+T> = None | Some(value: T)
}
